=== FILE: README.md ===
# DynamicRagdoll blend controller in Dafny

This project models the two core components of DynamicRagdoll (Unity, C#) and proves properties about them.

**RagdollController.** This component hands a humanoid character between animation and physics. On GoRagdoll it:
1. spends one capture frame in CalculateAnimationVelocity;
2. drops a physics ragdoll onto the animated pose;
3. lets the ragdoll chase the animation with a strength (the *fall decay*) that eases from 1 to 0;
4. waits for the ragdoll to settle;
5. plays a get-up animation;
6. blends the ragdoll pose back into it.

**PhysicalBoneTracker.** This is a PD controller that pushes one physics bone toward its animated counterpart, plus a joint drive that it rewrites only when the torque changes.

The model is functional. The controller's runtime state is an immutable `Controller` record holding:
- the state;
- the state start time;
- the fall decay;
- the fall-speed override (-1 = use the profile's speed);
- the bone-decay table;
- the set of deferred physics callbacks;
- the capture-frame counter;
- the per-bone joint-torque cache.

The editor-set references (profile, ragdoll, `disableGetUp`) form a separate `Setup`. `Awake`, `GoRagdoll`, `SetBoneDecay`, `SetFallSpeed`, `StorePhysics`, `LateUpdate` and `FixedUpdate` are pure functions. The engine clock becomes parameters: `Awake` and `GoRagdoll` take the current time, `LateUpdate` and `FixedUpdate` take the current time and the frame's delta time, and `SetBoneDecay`, `SetFallSpeed` and `StorePhysics` read no clock.

What the controller reads from the engine comes in as `FrameInput` and `PhysicsInput`:
- positions;
- rigid-body velocities;
- tracked animation velocities;
- gravity;
- the ground height under the master;
- the ragdoll root's forward vector.

What it asks the engine to do is returned as a list of `Effect`s:
- teleports;
- kinematic switches;
- renderer and culling switches;
- snapshots;
- the get-up trigger;
- running the stored callbacks.

Floats are `real`. Vectors are `Vec3` triples. Unity's `Mathf.Lerp` clamps its parameter, and `Mathf.Clamp01` and `Vector3.ClampMagnitude` are written out in the model. The square root used by `ClampMagnitude` is a parameter constrained to be one.

`Valid(setup, controller)` is the invariant every operation keeps:
- the fall decay lies in [0,1] and is 0 outside Falling;
- the capture counter is 0 between calls;
- the bone-decay table tracks exactly the rig's physics bones;
- the torque cache has one entry per bone;
- a controller missing a reference stays in Animated with an empty table.

`ControllerProperties.Run` applies any sequence of calls and keeps this invariant.

Modules, one per file:
- `Wrappers`: `Option`.
- `Numerics`: scalar clamp, lerp, MaxAbs.
- `Vectors`: `Vec3`, component-wise lerp and MaxAbs, ClampMagnitude.
- `JointDrive`: the torque change-detection cache shared by the controller and the tracker.
- `Profiles`: controller and bone profiles, rig.
- `BoneDecay`: the decay table.
- `FallDecay`: fall-decay easing and its termination.
- `VelocityPass`: one bone of `SetPhysicsVelocities`.
- `BoneTrackers`: PD control and `MoveBoneToMaster`.
- `RagdollController`: the state machine.
- `ControllerProperties`: properties spanning several calls.

Behaviours of the code worth stating, because a reader of the controller might expect otherwise:
- **Neighbour decay is additive.** `SetBoneDecay` spreads to the neighbours by calling itself with a zero neighbour decay (RagdollController.cs:718-722), so each neighbour goes through the same `+=` as the bone itself (:714-716). It is not a "set to at least" write (`BoneDecay.NeighborCallDoesNotSpread`, `BoneDecay.SpreadDecay`).
- **The capture frame records no sample.** `CalculateAnimationVelocities` samples only when the fall decay is nonzero (RagdollController.cs:831-841). The fall decay is still 0 during the one CalculateAnimationVelocity frame (:598-600), because `StartFallState` sets it to 1 only afterwards (:239-258). Sampling therefore begins in Falling (`ControllerProperties.CaptureFrameRecordsNoSample`).
- **The fall ends one physics step later.** `HandleFallLerp` runs in LateUpdate (:446-448), but `CheckForFallEnd`, which switches to Ragdolled, runs at the end of the next FixedUpdate's velocity pass (:629-633, :821). So the frame that brings the decay to 0 is followed by one more physics step in Falling (`ControllerProperties.FallEnds`).
- **GoRagdoll can interrupt the get-up.** The guard of `GoRagdoll` (:303-304) only refuses CalculateAnimationVelocity, Falling and Ragdolled. In TeleportMasterToRagdoll and BlendToAnimated the call is accepted and jumps back to CalculateAnimationVelocity. This is off the cycle, and `ragdollRenderersEnabled` turns false without any renderer being switched (`ControllerProperties.GoRagdollInterruptsGetUp`).
- **Without a reference only some calls are inert.** With the profile or the ragdoll missing, `GoRagdoll`, `LateUpdate` and `FixedUpdate` return at once. `SetBoneDecay` is inert too, because the decay table is empty and the untracked-bone check (:709-712) returns. `StorePhysics` (:273-276) and `SetFallSpeed` (:220-222) still change the record.

## Model

| member | source | states |
|---|---|---|
| Numerics.Clamp01 | Assets/DynamicRagdoll/Scripts/RagdollControl/RagdollController.cs:768-771 | the result lies in [0,1], equals the input inside [0,1], and is 0 or 1 below or above |
| Numerics.Lerp | Assets/DynamicRagdoll/Scripts/RagdollControl/RagdollController.cs:571 | for t in [0,1] the value a + (b − a)·t; a at t ≤ 0 and b at t ≥ 1 (the parameter is clamped); always between the endpoints |
| Numerics.MaxAbs | Assets/DynamicRagdoll/Scripts/RagdollControl/RagdollController.cs:730-732 | returns one of its arguments, the one with the larger magnitude, and the second on ties |
| Vectors.MaxAbs | Assets/DynamicRagdoll/Scripts/RagdollControl/RagdollController.cs:730-738 | each component is one of the two vectors' components, the one with the larger magnitude, and the second vector's on equal magnitudes |
| Vectors.Lerp | Assets/DynamicRagdoll/Scripts/RagdollControl/RagdollController.cs:798 | for t in [0,1] the vector a + t·(b − a); the start at t ≤ 0, the target at t ≥ 1; each component between the endpoints' |
| Vectors.ClampMagnitude | Assets/DynamicRagdoll/Scripts/BoneTrackers.cs:71 | the result's squared length is at most max²; a vector within the bound is returned unchanged, a longer one is scaled down to length exactly max by a factor in [0,1] |
| JointDrive.FollowJoint | Assets/DynamicRagdoll/Scripts/RagdollControl/RagdollController.cs:846-863 | a bone without a joint gets no write and keeps its cache; otherwise the spring is written exactly when the torque differs from the cached one, the cache then holds the torque, and the target rotation is set exactly when the torque is nonzero |
| JointDrive.RepeatedTorqueWritesNothing | Assets/DynamicRagdoll/Scripts/RagdollControl/RagdollController.cs:850-856 | a second follow step with the same torque writes no spring |
| JointDrive.CoherentJointTracksTorque | Assets/DynamicRagdoll/Scripts/RagdollControl/RagdollController.cs:850-856 | once the drive spring agrees with the cache, after any sequence of torques the spring equals the latest torque: skipping redundant writes loses nothing |
| JointDrive.FirstWriteMakesCoherent | Assets/DynamicRagdoll/Scripts/RagdollControl/RagdollController.cs:666-667 | when the first torque differs from the initial cache value (as the -1 start guarantees for non-negative torques), the spring ends equal to the latest torque whatever it was authored with |
| Profiles.IndexOf | Assets/DynamicRagdoll/Scripts/RagdollControl/RagdollController.cs:720 | a tracked bone id has a physics-bone index, and the bone at that index carries the id |
| BoneDecay.ResetBoneDecays | Assets/DynamicRagdoll/Scripts/RagdollControl/RagdollController.cs:695-699 | every physics bone's decay becomes exactly 0 and no other entry changes |
| BoneDecay.HitBone | Assets/DynamicRagdoll/Scripts/RagdollControl/RagdollController.cs:709-716 | an untracked bone is ignored; a tracked bone's decay grows by the value, the rest unchanged |
| BoneDecay.SpreadDecay | Assets/DynamicRagdoll/Scripts/RagdollControl/RagdollController.cs:718-722 | each tracked bone gains the neighbour decay once per time it is listed; keys unchanged |
| BoneDecay.SetBoneDecay | Assets/DynamicRagdoll/Scripts/RagdollControl/RagdollController.cs:707-724 | an untracked bone leaves the table unchanged; otherwise the bone gains the value and, for a positive neighbour decay, each listed neighbour gains it per listing, with no further spread |
| BoneDecay.NeighborCallDoesNotSpread | Assets/DynamicRagdoll/Scripts/RagdollControl/RagdollController.cs:721 | the per-neighbour call passes 0 spread, so it is a plain additive hit |
| BoneDecay.TwoHitsAdd | Assets/DynamicRagdoll/Scripts/RagdollControl/RagdollController.cs:714-716 | two hits on a bone leave it at the sum |
| BoneDecay.DecayOnlyGrows | Assets/DynamicRagdoll/Scripts/RagdollControl/RagdollController.cs:714-722 | with a non-negative value no entry ever decreases |
| BoneDecay.ResetForgetsHits | Assets/DynamicRagdoll/Scripts/RagdollControl/RagdollController.cs:326-327 | a reset after any hit gives the same table as a reset without it |
| BoneDecay.SpreadToTwo | Assets/DynamicRagdoll/Scripts/RagdollControl/RagdollController.cs:716-722 | a hit on a bone with two distinct neighbours adds the value to the bone and the neighbour decay to each neighbour |
| FallDecay.HandleFallLerp | Assets/DynamicRagdoll/Scripts/RagdollControl/RagdollController.cs:564-577 | a zero decay stays 0; otherwise the eased value fallDecay·(1 − clamp01(speed)) is kept when it is above the epsilon 0.0001 and becomes 0 exactly when it is at most the epsilon; a decay in [0,1] never increases or goes negative; a full step ends it and a zero speed keeps it |
| FallDecay.FallLerpSpeed | Assets/DynamicRagdoll/Scripts/RagdollControl/RagdollController.cs:568 | the frame's easing amount is the profile's fallDecaySpeed times deltaTime when the override is -1, and the override times deltaTime otherwise |
| FallDecay.FallDecayNonIncreasing | Assets/DynamicRagdoll/Scripts/RagdollControl/RagdollController.cs:570-575 | over any number of frames the decay stays in [0, start] and never increases |
| FallDecay.ZeroStaysZero | Assets/DynamicRagdoll/Scripts/RagdollControl/RagdollController.cs:570 | once 0, the decay stays 0 |
| FallDecay.FrameProgress | Assets/DynamicRagdoll/Scripts/RagdollControl/RagdollController.cs:571-575 | a frame that does not end the fall removes at least clamp01(speed)·epsilon |
| FallDecay.FallProgress | Assets/DynamicRagdoll/Scripts/RagdollControl/RagdollController.cs:566-577 | after n frames the decay is 0 or has lost n frame losses |
| FallDecay.BudgetIsLinear | Assets/DynamicRagdoll/Scripts/RagdollControl/RagdollController.cs:571-575 | n frame losses taken one at a time equal n times one frame loss |
| FallDecay.FallDecayReachesZero | Assets/DynamicRagdoll/Scripts/RagdollControl/RagdollController.cs:566-577 | with a positive speed some finite number of frames brings any decay in [0,1] to exactly 0 |
| VelocityPass.ChaseDecay | Assets/DynamicRagdoll/Scripts/RagdollControl/RagdollController.cs:768-771 | force and torque decay lie in [0,1]; they are the clamped curve value minus the manual decay whenever that difference is in [0,1]; 0 exactly when the manual decay reaches the clamped curve value; never above it for a non-negative manual decay, and equal to it without one |
| VelocityPass.WithGravity | Assets/DynamicRagdoll/Scripts/RagdollControl/RagdollController.cs:781-786 | an animation velocity slower than maxGravityAddVelocity gets one step of gravity as its vertical part; a faster one is unchanged; x and z are never touched |
| VelocityPass.TargetVelocity | Assets/DynamicRagdoll/Scripts/RagdollControl/RagdollController.cs:781-795 | without a manual decay the chased velocity is the gravity-adjusted animation velocity; with one, each component has the larger of the two magnitudes |
| VelocityPass.TargetVelocityRules | Assets/DynamicRagdoll/Scripts/RagdollControl/RagdollController.cs:781-795 | with a manual decay each component is the ragdoll's or the gravity-adjusted animation's, whichever has the larger magnitude, and the animation's on equal magnitudes; without one the target is the gravity-adjusted animation velocity |
| VelocityPass.FollowBone | Assets/DynamicRagdoll/Scripts/RagdollControl/RagdollController.cs:757-818 | the velocity is untouched exactly when the force decay is 0, else the lerp toward the target velocity by it; the root gets no joint follow; other bones follow with maxTorque·torqueDecay |
| VelocityPass.FullBoneDecayIgnoresAnimation | Assets/DynamicRagdoll/Scripts/RagdollControl/RagdollController.cs:771-774 | a manual decay ≥ 1 leaves the velocity untouched and sets no joint target |
| VelocityPass.NoBoneDecayFollowsCurve | Assets/DynamicRagdoll/Scripts/RagdollControl/RagdollController.cs:768-798 | without manual decay and at full curve strength the velocity becomes the gravity-adjusted animation velocity |
| BoneTrackers.PDSignal | Assets/DynamicRagdoll/Scripts/BoneTrackers.cs:67-70 | the signal is P·error plus P·D·(1/dt)·(error − lastError); with no change in error or no D gain it is P·error alone, and it is zero with no P gain |
| BoneTrackers.PDControl | Assets/DynamicRagdoll/Scripts/BoneTrackers.cs:67-72 | the PD signal P·(e + D·(e − e')·(1/dt)), returned unchanged within maxForce·weight and otherwise scaled down to exactly that magnitude |
| BoneTrackers.MoveBoneToMaster | Assets/DynamicRagdoll/Scripts/BoneTrackers.cs:39-66 | a zero input force, force cap or multiplier applies no force and zeroes the last error; otherwise the clamped PD force is applied and the last error is the current one; the joint torque is cap·bone·multiplier, written only when it changes and only for jointed bones, with the target set only for a nonzero torque |
| BoneTrackers.ForceWithinCap | Assets/DynamicRagdoll/Scripts/BoneTrackers.cs:46 | the applied force never exceeds maxForce·boneMaxForce·multiplier in magnitude |
| BoneTrackers.NewTrackerAsWritten | Assets/DynamicRagdoll/Scripts/BoneTrackers.cs:16-20 | a new tracker has multiplier 1, no previous error and a cached torque of 0 |
| BoneTrackers.AsWrittenFirstZeroTorqueSkipsDrive | Assets/DynamicRagdoll/Scripts/BoneTrackers.cs:53-64 | with the cache starting at 0, a first torque of 0 writes neither spring nor target |
| BoneTrackers.AsWrittenDriveKeepsAuthoredSpring | Assets/DynamicRagdoll/Scripts/BoneTrackers.cs:54-60 | with the cache starting at 0, torques of 0 leave the authored spring in place |
| BoneTrackers.NewTracker | Assets/DynamicRagdoll/Scripts/BoneTrackers.cs:16-20 | the corrected tracker caches a negative torque, which no non-negative torque equals |
| BoneTrackers.NewTrackerDriveFollowsTorque | Assets/DynamicRagdoll/Scripts/BoneTrackers.cs:51-60 | with the corrected -1 start the spring ends at the latest torque whatever it was authored with, unless the first torque is itself -1 |
| RagdollController.Awake | Assets/DynamicRagdoll/Scripts/RagdollControl/RagdollController.cs:465-502 | with both references the controller starts valid in Animated at the current time with all decays 0, a -1 torque cache for jointed bones, physics off, master shown; with one missing it returns no effect (the source's warning log is not modelled) and keeps the initial start time -100 |
| RagdollController.ChangeRagdollState | Assets/DynamicRagdoll/Scripts/RagdollControl/RagdollController.cs:261-265 | enters the state at the given time and leaves all episode data alone |
| RagdollController.GoRagdoll | Assets/DynamicRagdoll/Scripts/RagdollControl/RagdollController.cs:292-318 | no change exactly when a reference is missing or the state is CalculateAnimationVelocity, Falling or Ragdolled; otherwise trackers reset, counter 0, CalculateAnimationVelocity entered now; the invariant holds |
| RagdollController.SetFallSpeed | Assets/DynamicRagdoll/Scripts/RagdollControl/RagdollController.cs:220-222 | records the override and changes no other field of the controller, so it keeps the invariant |
| RagdollController.StorePhysics | Assets/DynamicRagdoll/Scripts/RagdollControl/RagdollController.cs:273-276 | adds the callback to the set (so duplicates collapse), changes no other field, and keeps the invariant |
| RagdollController.SetBoneDecay | Assets/DynamicRagdoll/Scripts/RagdollControl/RagdollController.cs:707-724 | the table update with the profile's neighbour list; no field other than the decay table changes, the tracked bones stay the same, and the invariant holds |
| RagdollController.IsGettingUp | Assets/DynamicRagdoll/Scripts/RagdollControl/RagdollController.cs:178-180 | true exactly in Animated before GetUpTime (2.5 s) has passed since the state started, including the instant it is entered; the master, not the ragdoll, is then visible |
| RagdollController.RagdollRenderersEnabled | Assets/DynamicRagdoll/Scripts/RagdollControl/RagdollController.cs:158-162 | true exactly in Falling, Ragdolled, TeleportMasterToRagdoll and BlendToAnimated |
| RagdollController.StartFallState | Assets/DynamicRagdoll/Scripts/RagdollControl/RagdollController.cs:239-258 | fall decay 1, Falling entered now, ragdoll teleported, physics and ragdoll renderers on, animator unculled |
| RagdollController.SampleAnimationVelocities | Assets/DynamicRagdoll/Scripts/RagdollControl/RagdollController.cs:831-841 | the trackers sample exactly when the fall decay is nonzero |
| RagdollController.UpdateLoop | Assets/DynamicRagdoll/Scripts/RagdollControl/RagdollController.cs:595-622 | only CalculateAnimationVelocity changes state: after one capture frame it starts the fall with the counter back at 0; Falling only samples |
| RagdollController.BlendWeight | Assets/DynamicRagdoll/Scripts/RagdollControl/RagdollController.cs:383-394 | at most 1, non-negative for a non-negative elapsed time, exactly 1 once blendTime has elapsed, and elapsed/blendTime before |
| RagdollController.MasterPlacement | Assets/DynamicRagdoll/Scripts/RagdollControl/RagdollController.cs:364-370 | the master moves by the master-hips-to-ragdoll-hips offset, with its height snapped to the ground when the probe hits |
| RagdollController.LateUpdateState | Assets/DynamicRagdoll/Scripts/RagdollControl/RagdollController.cs:437-459 | the per-state case keeps the invariant, advances at most one step along the cycle, and never enters CalculateAnimationVelocity |
| RagdollController.LateUpdate | Assets/DynamicRagdoll/Scripts/RagdollControl/RagdollController.cs:429-462 | keeps the invariant and moves at most one step along the cycle; Falling keeps its start time, eases the decay and samples exactly when it stays nonzero; the capture frame starts the fall now; the teleport waits for orientateDelay and places the master, entering the blend now; an unfinished blend frame (weight < 1) changes nothing and only loads the snapshot at 1 − blend, so the blend keeps measuring from its start; at blend 1 it returns to Animated now and shows the master |
| RagdollController.OnRagdollPhysics | Assets/DynamicRagdoll/Scripts/RagdollControl/RagdollController.cs:279-287 | the stored callbacks run once, only if there are any, and the set is emptied |
| RagdollController.StartGetUp | Assets/DynamicRagdoll/Scripts/RagdollControl/RagdollController.cs:324-347 | all decays 0, override cleared, physics off, pose saved, the front/back trigger from the hips' forward dotted with down, TeleportMasterToRagdoll entered |
| RagdollController.ReadyToGetUp | Assets/DynamicRagdoll/Scripts/RagdollControl/RagdollController.cs:580-588 | true only after ragdollMinTime has passed since the state started; never with a settled speed of 0 |
| RagdollController.ReadyToGetUpMeansSettled | Assets/DynamicRagdoll/Scripts/RagdollControl/RagdollController.cs:583-584 | the squared comparison is the speed test: ready exactly when ragdollMinTime has passed and the root's speed is below settledSpeed |
| RagdollController.SetPhysicsVelocities | Assets/DynamicRagdoll/Scripts/RagdollControl/RagdollController.cs:745-822 | runs the bone pass for every physics bone, caches each joint torque, keeps decays, callbacks and fall speed, and enters Ragdolled, with the start time now, exactly when the fall decay is 0, else keeps Falling and its start time |
| RagdollController.FixedUpdate | Assets/DynamicRagdoll/Scripts/RagdollControl/RagdollController.cs:523-562 | keeps the invariant and moves at most one step along the cycle; callbacks run (only the stored ones, once) exactly in Falling and Ragdolled; Falling runs the bone pass with no effect but the flush, caches every torque, keeps the decay table and fall speed, and ends exactly at decay 0, recording the start time then and keeping it otherwise; Ragdolled starts the get-up (StartGetUp's record and effects after the flush), at the current time, exactly when it is enabled, minTime has passed and the root's speed² is below settledSpeed², and otherwise only flushes the callbacks; Animated re-glues the ragdoll; CalculateAnimationVelocity, TeleportMasterToRagdoll and BlendToAnimated are left untouched with no effect |
| ControllerProperties.GoRagdollFallsOnNextFrame | Assets/DynamicRagdoll/Scripts/RagdollControl/RagdollController.cs:292-318 | from Awake, GoRagdoll then one rendered frame gives Falling with decay 1 and exactly the fall-start engine calls |
| ControllerProperties.CaptureFrameRecordsNoSample | Assets/DynamicRagdoll/Scripts/RagdollControl/RagdollController.cs:598-600 | the capture frame of CalculateAnimationVelocity records no animation-velocity sample |
| ControllerProperties.LateFrames | Assets/DynamicRagdoll/Scripts/RagdollControl/RagdollController.cs:446-448 | any number of rendered frames keeps the invariant |
| ControllerProperties.LateFramesEase | Assets/DynamicRagdoll/Scripts/RagdollControl/RagdollController.cs:566-577 | n rendered frames while falling equal n HandleFallLerp steps with the frame's speed, staying Falling |
| ControllerProperties.FallEnds | Assets/DynamicRagdoll/Scripts/RagdollControl/RagdollController.cs:629-633 | with a positive easing speed, some number of frames brings the decay to 0 and the next physics step enters Ragdolled |
| ControllerProperties.OverrideEasesOneFrame | Assets/DynamicRagdoll/Scripts/RagdollControl/RagdollController.cs:568-571 | with an override of 2 and a 0.1 s frame, a fresh decay of 1 becomes 0.8 and is sampled |
| ControllerProperties.StoredCallbackRunsOnce | Assets/DynamicRagdoll/Scripts/RagdollControl/RagdollController.cs:529-533 | a callback stored during capture runs on the first physics step of the fall and never on the next |
| ControllerProperties.StoringTwiceKeepsOneCopy | Assets/DynamicRagdoll/Scripts/RagdollControl/RagdollController.cs:273-276 | storing a callback twice is storing it once |
| ControllerProperties.CallbackWaitsWhileAnimated | Assets/DynamicRagdoll/Scripts/RagdollControl/RagdollController.cs:546-551 | an animated physics step keeps stored callbacks and only re-glues the ragdoll |
| ControllerProperties.GetUpReturnsToAnimated | Assets/DynamicRagdoll/Scripts/RagdollControl/RagdollController.cs:324-416 | settled ragdoll → teleport after orientateDelay → full blend after blendTime → Animated, getting up, master shown, decays 0, default fall speed |
| ControllerProperties.DisabledGetUpStaysRagdolled | Assets/DynamicRagdoll/Scripts/RagdollControl/RagdollController.cs:538-544 | with get-up disabled a ragdoll never leaves Ragdolled on a physics step |
| ControllerProperties.BlendHalfway | Assets/DynamicRagdoll/Scripts/RagdollControl/RagdollController.cs:383-395 | halfway through the blend the snapshot is loaded at weight 0.5 and blending continues |
| ControllerProperties.RenderersFollowState | Assets/DynamicRagdoll/Scripts/RagdollControl/RagdollController.cs:158-162 | whenever a rendered frame changes ragdollRenderersEnabled it switches the renderers to match |
| ControllerProperties.PhysicsStepKeepsRenderers | Assets/DynamicRagdoll/Scripts/RagdollControl/RagdollController.cs:158-162 | a physics step never changes ragdollRenderersEnabled |
| ControllerProperties.GoRagdollInterruptsGetUp | Assets/DynamicRagdoll/Scripts/RagdollControl/RagdollController.cs:303-315 | GoRagdoll during the get-up jumps off the cycle to CalculateAnimationVelocity and turns ragdollRenderersEnabled off without switching a renderer |
| ControllerProperties.FullHitReleasesBone | Assets/DynamicRagdoll/Scripts/RagdollControl/RagdollController.cs:771-774 | a full manual hit during the fall makes the next physics step leave that bone's velocity and joint target alone |
| ControllerProperties.HitSpreadsToNeighbors | Assets/DynamicRagdoll/Scripts/RagdollControl/RagdollController.cs:707-724 | a hit with spread adds the value to the bone and the neighbour decay to each of two distinct neighbours |
| ControllerProperties.Apply | Assets/DynamicRagdoll/Scripts/RagdollControl/RagdollController.cs:292-562 | any single call keeps the invariant and changes state only along the cycle or by GoRagdoll's restart |
| ControllerProperties.Run | Assets/DynamicRagdoll/Scripts/RagdollControl/RagdollController.cs:199-204 | any sequence of calls keeps the fall decay in [0,1] and 0 outside Falling, and the table over exactly the physics bones; a controller missing a reference stays Animated |
| ControllerProperties.AwakeThenAnyRun | Assets/DynamicRagdoll/Scripts/RagdollControl/RagdollController.cs:465-502 | from Awake, any run keeps the fall decay in [0,1] and 0 outside Falling |

## Left out

- Quaternion geometry is left out: the master's yaw-only reorientation, the joint-space basis change of `InitializeJointFollowing` and the tracker, and joint target rotations. Only whether a target rotation is written is recorded, and the hips' forward vector is an input.
- `AnimationCurve.Evaluate` is not modelled. The fall-force and fall-torque curves are arbitrary functions in the bone profile.
- `VelocityTracker` is not part of this model. Its samples are the `animationVelocities` input, and its reset and sampling are the `ResetVelocityTrackers` and `TrackVelocities` effects.
- Renderers, animator triggers and culling, `Ragdoll.TeleportToTarget`, `SetKinematic`, `SaveSnapshot`/`LoadSnapshot`, `Physics.Raycast`, rigid-body writes and `AddForce` are engine calls. They appear as effects or inputs, and the velocity pass returns the velocity to write.
- IEEE float rounding, NaN and infinities are not modelled; reals are used. Unity's `Vector3.ClampMagnitude` is modelled with an exact square root.
- `RagdollController.BlendWeight` requires a nonzero blend time (part of `WellFormed`), because a float division by zero is not modelled.
- `InitializeForwardCalculation`'s frame-count hack and `Awake`'s component wiring are left out. The wiring covers the animator, master renderers, follow target and controller registration.
- The per-bone `InitializeVelocitySetValues` setup is also left out.
- Callbacks are opaque identities. What they do when run, including storing further callbacks, is not modelled.
- Reassigning the profile or ragdoll at run time is not modelled. `Setup` is fixed for a run.
- `PhysicalBoneTracker.EnableJointLimits` and the tracker constructor's quaternion setup are left out.
- The editor inspector and the demo player script are not part of this model.
- The drive written to a joint is, in the source, a `static JointDrive` shared by every controller (RagdollController.cs:212). It is loaded from each joint in turn during setup (:677-678) and written whole when the torque changes (:854-855); `MoveBoneToMaster` likewise writes the whole drive it is given (BoneTrackers.cs:39-66). So each write also copies the damper and maximum force of the last joint any controller set up. The model records only the position spring.
- A rig with a non-root bone that has no joint makes the source's joint-following setup dereference a missing joint (RagdollController.cs:664-670). The model does not model that failure: `Profiles.WellFormed` requires a joint on every bone but the root.
- Debug logging is not modelled: the warnings of `Awake` and `GoRagdoll` when a reference is missing (RagdollController.cs:468, :472, :295, :299) and the error of `SetBoneDecay` for a bone that is not a physics bone (:710). They have no `Effect`; these calls return with no effect instead.
- `ControllerProperties.FallEnds`: it assumes a positive easing amount per frame. A zero or negative fall speed never ends the fall, as in the source.

## Findings

| source | as written | input that shows it | evidently intended | confidence | as-written member | corrected member |
|---|---|---|---|---|---|---|
| Assets/DynamicRagdoll/Scripts/BoneTrackers.cs:20 | `lastJointTorque` starts at the field default 0, so the first `MoveBoneToMaster` whose joint torque is 0 never writes the drive spring. This happens with `runtimeMultiplier` 0, a bone `maxTorque` of 0 or a zero `maxJointTorque`. The joint keeps the spring it was authored with, possibly forever. | a jointed bone authored with spring 500 and joint torques 0, 0 | start the cache at a value no torque takes, as the controller does when it primes its own torque cache with -1 (RagdollController.cs:666-667), so the spring always equals the latest torque | low (not executed) | BoneTrackers.AsWrittenDriveKeepsAuthoredSpring | BoneTrackers.NewTrackerDriveFollowsTorque |

=== FILE: bone_decay.dfy ===
/**
  The bone-decay table: a manual per-bone override that weakens how strongly
  a falling physics bone chases the animation (0 = follow normally, 1 = ignore
  the animation). Writes are additive; a hit may spread one level to the
  bone's profile neighbours.
 */
module BoneDecay {
  import opened Profiles
  import Numerics

  type DecayTable = map<BoneId, real>

  /**
    ResetBoneDecays: every physics bone's decay becomes exactly 0; any other
    entry is left as it was.
   */
  function ResetBoneDecays(t: DecayTable, rig: Rig): (r: DecayTable)
    ensures r.Keys == t.Keys + Ids(rig)
    ensures forall b :: b in Ids(rig) ==> r[b] == 0.0
    ensures forall b :: b in t && b !in Ids(rig) ==> r[b] == t[b]
  {
    map b | b in t.Keys + Ids(rig) :: if b in Ids(rig) then 0.0 else t[b]
  }

  /** Adds `v` to a tracked bone's decay; an untracked bone is ignored. */
  function HitBone(t: DecayTable, bone: BoneId, v: real): (r: DecayTable)
    ensures r.Keys == t.Keys
    ensures forall k :: k in t ==> r[k] == t[k] + (if k == bone then v else 0.0)
  {
    if bone in t then t[bone := t[bone] + v] else t
  }

  /**
    Adds `v` once per occurrence of each tracked bone in `bones`, as the
    neighbour loop of SetBoneDecay does (one hit per listed neighbour).
   */
  function SpreadDecay(t: DecayTable, bones: seq<BoneId>, v: real): (r: DecayTable)
    ensures r.Keys == t.Keys
    ensures forall k :: k in t ==> r[k] == t[k] + v * (multiset(bones)[k] as real)
    decreases |bones|
  {
    if |bones| == 0 then t
    else
      var t' := HitBone(t, bones[0], v);
      var r := SpreadDecay(t', bones[1..], v);
      SpreadStep(t, bones, v, t', r);
      r
  }

  /** One neighbour hit followed by the rest of the spread is the whole spread. */
  lemma SpreadStep(t: DecayTable, bones: seq<BoneId>, v: real, t': DecayTable, r: DecayTable)
    requires |bones| > 0
    requires t'.Keys == t.Keys && r.Keys == t.Keys
    requires forall k :: k in t ==> t'[k] == t[k] + (if k == bones[0] then v else 0.0)
    requires forall k :: k in t' ==> r[k] == t'[k] + v * (multiset(bones[1..])[k] as real)
    ensures forall k :: k in t ==> r[k] == t[k] + v * (multiset(bones)[k] as real)
  {
    forall k | k in t
      ensures r[k] == t[k] + v * (multiset(bones)[k] as real)
    {
      assert k in t';
      SpreadStepAt(bones, v, k, t[k], t'[k], r[k]);
    }
  }

  /** SpreadStep for one bone `k`, whose entries are `a` before, `b` after the head hit, `c` at the end. */
  lemma SpreadStepAt(bones: seq<BoneId>, v: real, k: BoneId, a: real, b: real, c: real)
    requires |bones| > 0
    requires b == a + (if k == bones[0] then v else 0.0)
    requires c == b + v * (multiset(bones[1..])[k] as real)
    ensures c == a + v * (multiset(bones)[k] as real)
  {
    CountFirst(bones, k);
    AddOneHit(a, b, v, multiset(bones[1..])[k], multiset(bones)[k], k == bones[0]);
  }

  /** The occurrences of `k` in a non-empty list: the head's plus the tail's. */
  lemma CountFirst(bones: seq<BoneId>, k: BoneId)
    requires |bones| > 0
    ensures multiset(bones)[k] == multiset(bones[1..])[k] + (if k == bones[0] then 1 else 0)
  {
    assert bones == [bones[0]] + bones[1..];
    assert multiset(bones) == multiset{bones[0]} + multiset(bones[1..]);
  }

  /** Arithmetic of one extra hit: `v` more now is one more count of `v` later. */
  lemma AddOneHit(a: real, b: real, v: real, n: nat, m: nat, hit: bool)
    requires b == a + (if hit then v else 0.0)
    requires m == n + (if hit then 1 else 0)
    ensures b + v * (n as real) == a + v * (m as real)
  {
    if hit {
      assert v * ((n + 1) as real) == v + v * (n as real);
    }
  }

  /**
    SetBoneDecay: an untracked bone leaves the table unchanged; a tracked bone
    gains `decayValue`, and when `neighborDecay` is positive every listed
    neighbour gains `neighborDecay` per listing (no further propagation).
   */
  function SetBoneDecay(t: DecayTable, bone: BoneId, decayValue: real, neighborDecay: real,
                        neighbors: seq<BoneId>): (r: DecayTable)
    ensures bone !in t ==> r == t
    ensures r.Keys == t.Keys
    ensures bone in t ==> forall k :: k in t ==>
      r[k] == t[k] + (if k == bone then decayValue else 0.0)
                   + (if neighborDecay > 0.0 then neighborDecay * (multiset(neighbors)[k] as real) else 0.0)
  {
    if bone !in t then t
    else
      var hit := HitBone(t, bone, decayValue);
      if neighborDecay > 0.0 then SpreadDecay(hit, neighbors, neighborDecay) else hit
  }

  /** The call made for each neighbour passes no spread, so it is a plain hit. */
  lemma NeighborCallDoesNotSpread(t: DecayTable, bone: BoneId, v: real, neighbors: seq<BoneId>)
    ensures SetBoneDecay(t, bone, v, 0.0, neighbors) == HitBone(t, bone, v)
  {
  }

  /** Two hits on the same bone in one episode add up. */
  lemma TwoHitsAdd(t: DecayTable, bone: BoneId, d1: real, d2: real, neighbors: seq<BoneId>)
    requires bone in t
    ensures SetBoneDecay(SetBoneDecay(t, bone, d1, 0.0, neighbors), bone, d2, 0.0, neighbors)[bone]
            == t[bone] + d1 + d2
  {
  }

  /**
    A hit on a bone with two distinct listed neighbours: the bone gains the
    decay value and each neighbour the neighbour decay, once.
   */
  lemma SpreadToTwo(t: DecayTable, bone: BoneId, a: BoneId, b: BoneId, decayValue: real,
                    neighborDecay: real)
    requires bone in t && a in t && b in t
    requires a != b && a != bone && b != bone && 0.0 < neighborDecay
    ensures var r := SetBoneDecay(t, bone, decayValue, neighborDecay, [a, b]);
            && r[bone] == t[bone] + decayValue
            && r[a] == t[a] + neighborDecay
            && r[b] == t[b] + neighborDecay
  {
    var m := multiset([a, b]);
    assert m[bone] == 0 && m[a] == 1 && m[b] == 1;
  }

  /** With non-negative values, no entry of the table ever decreases. */
  lemma {:induction false} DecayOnlyGrows(t: DecayTable, bone: BoneId, decayValue: real,
                                          neighborDecay: real, neighbors: seq<BoneId>)
    requires 0.0 <= decayValue
    ensures forall k :: k in t ==> t[k] <= SetBoneDecay(t, bone, decayValue, neighborDecay, neighbors)[k]
  {
    forall k | k in t
      ensures t[k] <= SetBoneDecay(t, bone, decayValue, neighborDecay, neighbors)[k]
    {
      if neighborDecay > 0.0 {
        Numerics.ProductNonNegative(neighborDecay, multiset(neighbors)[k] as real);
      }
    }
  }

  /** Whatever was hit during an episode, a reset leaves every physics bone at 0. */
  lemma ResetForgetsHits(t: DecayTable, rig: Rig, bone: BoneId, decayValue: real,
                         neighborDecay: real, neighbors: seq<BoneId>)
    requires t.Keys == Ids(rig)
    ensures ResetBoneDecays(SetBoneDecay(t, bone, decayValue, neighborDecay, neighbors), rig)
            == ResetBoneDecays(t, rig)
  {
  }
}

=== FILE: bone_trackers.dfy ===
/**
  The physical bone tracker: a PD controller that pushes one physics bone's
  centre of mass toward where its animated (master) bone wants it, and the
  joint drive that turns it toward the master's local rotation.

  Where the master wants the centre of mass (master position plus the
  master-rotated offset) and the rigid body's centre of mass are engine reads
  and come in as vectors; target rotations are quaternions and only whether
  one is written is recorded.
 */
module BoneTrackers {
  import opened Wrappers
  import opened Numerics
  import opened Vectors
  import opened Profiles
  import JD = JointDrive

  /**
    The tracker's mutable state: the runtime strength multiplier, the PD
    controller's previous error, and the joint torque last written.
   */
  datatype Tracker = Tracker(hasJoint: bool, runtimeMultiplier: real, forceLastError: Vec3,
                             lastJointTorque: real)

  /**
    The tracker as the constructor leaves it: multiplier 1, no previous
    error, and the cached torque at the field default 0.
   */
  function NewTrackerAsWritten(hasJoint: bool): (t: Tracker)
    ensures t.runtimeMultiplier == 1.0 && t.forceLastError == Zero
    ensures t.lastJointTorque == 0.0
  {
    Tracker(hasJoint, 1.0, Zero, 0.0)
  }

  /**
    The tracker with its cached torque at -1, a value no non-negative torque
    equals, so the first follow step always writes the drive (the convention
    the blend controller uses for its own torque cache).
   */
  function NewTracker(hasJoint: bool): (t: Tracker)
    ensures t.runtimeMultiplier == 1.0 && t.forceLastError == Zero
    ensures t.lastJointTorque < 0.0
  {
    Tracker(hasJoint, 1.0, Zero, -1.0)
  }

  /** The unclamped PD signal P * (error + D * (error - lastError) / deltaTime). */
  function PDSignal(P: real, D: real, error: Vec3, lastError: Vec3, reciDeltaTime: real): (r: Vec3)
    ensures error == lastError ==> r == Scale(P, error)
    ensures D == 0.0 ==> r == Scale(P, error)
    ensures P == 0.0 ==> r == Zero
    ensures r == Add(Scale(P, error), Scale(P * D * reciDeltaTime, Sub(error, lastError)))
  {
    Scale(P, Add(error, Scale(D * reciDeltaTime, Sub(error, lastError))))
  }

  /**
    PDControl: the PD signal with its magnitude clamped to maxForce * weight.
   */
  function PDControl(P: real, D: real, error: Vec3, lastError: Vec3, maxForce: real, weight: real,
                     reciDeltaTime: real, sqrt: real -> real): (r: Vec3)
    requires IsSquareRoot(sqrt)
    ensures SqrMag(r) <= (maxForce * weight) * (maxForce * weight)
    ensures var s := PDSignal(P, D, error, lastError, reciDeltaTime);
            && (SqrMag(s) <= (maxForce * weight) * (maxForce * weight) ==> r == s)
            && (SqrMag(s) > (maxForce * weight) * (maxForce * weight) ==>
                  SqrMag(r) == (maxForce * weight) * (maxForce * weight))
            && (0.0 <= maxForce * weight ==> exists k :: 0.0 <= k <= 1.0 && r == Scale(k, s))
  {
    ClampMagnitude(PDSignal(P, D, error, lastError, reciDeltaTime), maxForce * weight, sqrt)
  }

  /**
    The effect of one MoveBoneToMaster call: the updated tracker, the
    velocity-change force applied at the centre of mass (if any), the drive
    spring written (if any) and whether the joint target rotation is written.
   */
  datatype TrackerStep = TrackerStep(tracker: Tracker, force: Option<Vec3>, spring: Option<real>,
                                     setsTarget: bool)

  /** The force gate: a zero input force, force cap or multiplier switches the PD force off. */
  predicate ForceEnabled(t: Tracker, maxForce: real, bp: BoneProfile)
  {
    bp.inputForce != 0.0 && maxForce != 0.0 && t.runtimeMultiplier != 0.0
  }

  /** The joint torque of a step: the global cap scaled by the bone's and the runtime multiplier. */
  function JointTorque(t: Tracker, maxJointTorque: real, bp: BoneProfile): real
  {
    maxJointTorque * bp.maxTorque * t.runtimeMultiplier
  }

  function MoveBoneToMaster(t: Tracker, p: Profile, maxForce: real, maxJointTorque: real,
                            reciDeltaTime: real, bp: BoneProfile, desiredCenter: Vec3,
                            centerOfMass: Vec3, sqrt: real -> real): (r: TrackerStep)
    requires IsSquareRoot(sqrt)
    ensures r.tracker.hasJoint == t.hasJoint && r.tracker.runtimeMultiplier == t.runtimeMultiplier
    ensures !ForceEnabled(t, maxForce, bp) ==> r.force.None? && r.tracker.forceLastError == Zero
    ensures ForceEnabled(t, maxForce, bp) ==>
      var error := Sub(desiredCenter, centerOfMass);
      && r.tracker.forceLastError == error
      && r.force == Some(PDControl(p.PForce * bp.inputForce, p.DForce, error, t.forceLastError,
                                   maxForce, bp.maxForce * t.runtimeMultiplier, reciDeltaTime, sqrt))
    ensures var torque := JointTorque(t, maxJointTorque, bp);
            && (t.hasJoint ==> r.tracker.lastJointTorque == torque)
            && (!t.hasJoint ==> r.tracker.lastJointTorque == t.lastJointTorque)
            && (r.spring.Some? <==> t.hasJoint && torque != t.lastJointTorque)
            && (r.spring.Some? ==> r.spring.value == torque)
            && (r.setsTarget <==> t.hasJoint && torque != 0.0)
  {
    var enabled := ForceEnabled(t, maxForce, bp);
    var error := if enabled then Sub(desiredCenter, centerOfMass) else Zero;
    var force :=
      if enabled then
        Some(PDControl(p.PForce * bp.inputForce, p.DForce, error, t.forceLastError, maxForce,
                       bp.maxForce * t.runtimeMultiplier, reciDeltaTime, sqrt))
      else None;
    var drive := JD.FollowJoint(t.hasJoint, JointTorque(t, maxJointTorque, bp), t.lastJointTorque);
    TrackerStep(t.(forceLastError := error, lastJointTorque := drive.lastTorque), force, drive.spring,
                drive.setsTarget)
  }

  /**
    The applied force never exceeds the bone's force cap
    (maxForce * boneProfile.maxForce * runtimeMultiplier) in magnitude.
   */
  lemma ForceWithinCap(t: Tracker, p: Profile, maxForce: real, maxJointTorque: real,
                       reciDeltaTime: real, bp: BoneProfile, desiredCenter: Vec3,
                       centerOfMass: Vec3, sqrt: real -> real)
    requires IsSquareRoot(sqrt)
    ensures var r := MoveBoneToMaster(t, p, maxForce, maxJointTorque, reciDeltaTime, bp,
                                      desiredCenter, centerOfMass, sqrt);
            var cap := maxForce * (bp.maxForce * t.runtimeMultiplier);
            r.force.Some? ==> SqrMag(r.force.value) <= cap * cap
  {
  }

  /**
    As written, a joint bone whose first joint torque is 0 (for instance a
    runtime multiplier of 0) never gets its drive spring written: the cached
    torque already reads 0, so the joint keeps whatever spring it was authored
    with while its target rotation is no longer updated.
   */
  lemma AsWrittenFirstZeroTorqueSkipsDrive(p: Profile, maxForce: real, reciDeltaTime: real,
                                           bp: BoneProfile, desiredCenter: Vec3, centerOfMass: Vec3,
                                           sqrt: real -> real)
    requires IsSquareRoot(sqrt)
    ensures var t := NewTrackerAsWritten(true).(runtimeMultiplier := 0.0);
            var r := MoveBoneToMaster(t, p, maxForce, 1.0, reciDeltaTime, bp, desiredCenter,
                                      centerOfMass, sqrt);
            r.spring.None? && !r.setsTarget
  {
  }

  /**
    With the corrected constructor, the joint's drive spring always equals
    the latest torque, whatever spring the joint was authored with, unless
    the very first torque is the -1 the cache starts at.
   */
  lemma NewTrackerDriveFollowsTorque(authoredSpring: real, torques: seq<real>)
    requires |torques| > 0 && torques[0] != -1.0
    ensures JD.ApplyTorques(JD.Joint(authoredSpring, NewTracker(true).lastJointTorque), torques).spring
            == torques[|torques| - 1]
  {
    JD.FirstWriteMakesCoherent(JD.Joint(authoredSpring, NewTracker(true).lastJointTorque), torques);
  }

  /**
    With the constructor as written the spring can stay at its authored value
    although every torque is 0.
   */
  lemma AsWrittenDriveKeepsAuthoredSpring()
    ensures JD.ApplyTorques(JD.Joint(500.0, NewTrackerAsWritten(true).lastJointTorque), [0.0, 0.0]).spring
            == 500.0
  {
  }
}

=== FILE: controller_properties.dfy ===
/**
  Properties of the blend controller that span several calls: the fall
  start, the end of the fall, the deferred physics callbacks, the get-up
  sequence, the renderers following the state, how a manual bone hit reaches
  the velocity pass, and the invariant over any run of calls.
 */
module ControllerProperties {
  import opened Wrappers
  import opened Numerics
  import V = Vectors
  import opened Profiles
  import BD = BoneDecay
  import FD = FallDecay
  import VP = VelocityPass
  import opened RagdollController

  // ---------------------------------------------------------------------------
  // Starting a fall
  // ---------------------------------------------------------------------------

  /**
    From a freshly awoken controller, GoRagdoll resets the velocity trackers
    and the very next rendered frame starts the fall: the state is Falling,
    the fall decay 1, the ragdoll teleported onto the animation, physics and
    the ragdoll's renderers on, and the animator no longer culled.
   */
  lemma GoRagdollFallsOnNextFrame(s: Setup, awake: real, hit: real, frameTime: real, dt: real,
                                  frame: FrameInput)
    requires Configured(s) && WellFormed(s.profile.value, s.rig.value)
    ensures var c0 := Awake(s, awake).next;
            var go := GoRagdoll(s, c0, hit);
            var late := LateUpdate(s, go.next, frameTime, dt, frame);
            && go.effects == [ResetVelocityTrackers]
            && go.next.state == CalculateAnimationVelocity
            && late.next.state == Falling && late.next.fallDecay == 1.0
            && late.next.stateStartTime == frameTime
            && late.effects == [TeleportRagdoll(All), SetKinematic(false), EnableRenderers(false, true),
                                SetCulling(AlwaysAnimate)]
  {
  }

  /**
    The capture frame records no animation-velocity sample: the fall decay is
    still 0 in CalculateAnimationVelocity, so the tracker sampling, which runs
    only for a nonzero fall decay, is skipped there.
   */
  lemma CaptureFrameRecordsNoSample(s: Setup, c: Controller, now: real, dt: real, frame: FrameInput)
    requires Valid(s, c) && c.state == CalculateAnimationVelocity
    ensures forall e :: e in LateUpdate(s, c, now, dt, frame).effects ==> !e.TrackVelocities?
  {
  }

  // ---------------------------------------------------------------------------
  // Ending a fall
  // ---------------------------------------------------------------------------

  /** The controller after `n` rendered frames with the same inputs. */
  function LateFrames(s: Setup, c: Controller, now: real, dt: real, frame: FrameInput, n: nat): (r: Controller)
    requires Valid(s, c)
    ensures Valid(s, r)
    decreases n
  {
    if n == 0 then c else LateUpdate(s, LateFrames(s, c, now, dt, frame, n - 1), now, dt, frame).next
  }

  /** The easing amount a falling controller applies each frame. */
  function FrameSpeed(s: Setup, c: Controller, dt: real): real
    requires Configured(s)
  {
    FD.FallLerpSpeed(c.fallSpeed, s.profile.value.fallDecaySpeed, dt)
  }

  /**
    While falling, n rendered frames ease the fall decay exactly as n steps of
    HandleFallLerp do, and the controller stays Falling with the same speed.
   */
  lemma {:induction false} LateFramesEase(s: Setup, c: Controller, now: real, dt: real,
                                          frame: FrameInput, n: nat)
    requires Valid(s, c) && Configured(s) && c.state == Falling
    ensures var r := LateFrames(s, c, now, dt, frame, n);
            && r.state == Falling
            && r.fallSpeed == c.fallSpeed
            && r.fallDecay == FD.FallLerpSteps(c.fallDecay, FrameSpeed(s, c, dt), n)
  {
    if n > 0 {
      LateFramesEase(s, c, now, dt, frame, n - 1);
    }
  }

  /**
    A fall always ends: with a positive easing amount per frame, some number
    of rendered frames brings the fall decay to 0, and the next physics step
    then moves the controller to Ragdolled.
   */
  lemma FallEnds(s: Setup, c: Controller, now: real, dt: real, frame: FrameInput,
                 physicsTime: real, fixedDt: real, input: PhysicsInput)
    requires Valid(s, c) && Configured(s) && c.state == Falling
    requires 0.0 < FrameSpeed(s, c, dt)
    requires FitsRig(input, s.rig.value)
    ensures exists n: nat ::
      && LateFrames(s, c, now, dt, frame, n).state == Falling
      && LateFrames(s, c, now, dt, frame, n).fallDecay == 0.0
      && FixedUpdate(s, LateFrames(s, c, now, dt, frame, n), physicsTime, fixedDt, input).next.state
         == Ragdolled
  {
    FD.FallDecayReachesZero(c.fallDecay, FrameSpeed(s, c, dt));
    var n: nat :| FD.FallLerpSteps(c.fallDecay, FrameSpeed(s, c, dt), n) == 0.0;
    LateFramesEase(s, c, now, dt, frame, n);
  }

  /**
    With a fall-speed override of 2 and frames of 0.1 s, one rendered frame
    eases a fresh fall decay of 1 to 0.8, and the profile's speed is ignored.
   */
  lemma OverrideEasesOneFrame(s: Setup, c: Controller, now: real, frame: FrameInput)
    requires Valid(s, c) && Configured(s) && c.state == Falling
    requires c.fallDecay == 1.0 && c.fallSpeed == 2.0
    ensures var r := LateUpdate(s, c, now, 0.1, frame);
            r.next.state == Falling && r.next.fallDecay == 0.8 && r.effects == [TrackVelocities(0.1)]
  {
  }

  // ---------------------------------------------------------------------------
  // Deferred physics callbacks
  // ---------------------------------------------------------------------------

  /**
    A callback stored while the animation velocities are captured waits for
    the fall: the first physics step after the fall starts runs it (with the
    others stored), and the next physics step runs nothing.
   */
  lemma StoredCallbackRunsOnce(s: Setup, c: Controller, callback: Callback, frameTime: real, dt: real,
                               frame: FrameInput, t1: real, t2: real, fixedDt: real,
                               in1: PhysicsInput, in2: PhysicsInput)
    requires Valid(s, c) && Configured(s) && c.state == CalculateAnimationVelocity
    requires FitsRig(in1, s.rig.value) && FitsRig(in2, s.rig.value)
    ensures var stored := StorePhysics(s, c, callback);
            var late := LateUpdate(s, stored, frameTime, dt, frame).next;
            var first := FixedUpdate(s, late, t1, fixedDt, in1);
            var second := FixedUpdate(s, first.next, t2, fixedDt, in2);
            && late.physicsCallbacks == c.physicsCallbacks + {callback}
            && RunPhysicsCallbacks(c.physicsCallbacks + {callback}) in first.effects
            && first.next.physicsCallbacks == {}
            && (forall e :: e in second.effects ==> !e.RunPhysicsCallbacks?)
  {
  }

  /** Storing the same callback twice is the same as storing it once. */
  lemma StoringTwiceKeepsOneCopy(s: Setup, c: Controller, callback: Callback)
    requires Valid(s, c)
    ensures StorePhysics(s, StorePhysics(s, c, callback), callback) == StorePhysics(s, c, callback)
  {
  }

  /** A callback stored while animated is not run by physics steps that stay animated. */
  lemma CallbackWaitsWhileAnimated(s: Setup, c: Controller, callback: Callback, now: real, dt: real,
                                   input: PhysicsInput)
    requires Valid(s, c) && Configured(s) && c.state == Animated && FitsRig(input, s.rig.value)
    ensures var r := FixedUpdate(s, StorePhysics(s, c, callback), now, dt, input);
            && r.next.physicsCallbacks == c.physicsCallbacks + {callback}
            && r.effects == [TeleportRagdoll(PhysicsBonesAndParents)]
  {
  }

  // ---------------------------------------------------------------------------
  // Getting up
  // ---------------------------------------------------------------------------

  /**
    The get-up sequence: a settled ragdoll starts getting up on a physics
    step, the master is placed once the orientate delay has passed, and the
    blend back to the animation finishes once the blend time has passed. The
    controller is then Animated, reports that it is getting up, shows the
    master, and every bone decay and the fall speed are back at their
    defaults for the next fall.
   */
  lemma GetUpReturnsToAnimated(s: Setup, c: Controller, t0: real, fixedDt: real, input: PhysicsInput,
                               t1: real, t2: real, dt: real, frame1: FrameInput, frame2: FrameInput)
    requires Valid(s, c) && Configured(s) && c.state == Ragdolled && FitsRig(input, s.rig.value)
    requires !s.disableGetUp && ReadyToGetUp(s, c, t0, input)
    requires t1 - t0 >= s.profile.value.orientateDelay
    requires 0.0 < s.profile.value.blendTime && t2 - t1 >= s.profile.value.blendTime
    ensures var up := FixedUpdate(s, c, t0, fixedDt, input).next;
            var placed := LateUpdate(s, up, t1, dt, frame1);
            var blended := LateUpdate(s, placed.next, t2, dt, frame2);
            && up.state == TeleportMasterToRagdoll
            && placed.next.state == BlendToAnimated
            && placed.effects == [PlaceMaster(MasterPlacement(frame1))]
            && blended.next.state == Animated
            && blended.effects == [LoadSnapshot(0.0), SetCulling(OriginalCulling), EnableRenderers(true, false)]
            && IsGettingUp(blended.next, t2)
            && !RagdollRenderersEnabled(blended.next)
            && blended.next.fallSpeed == FD.UseProfileSpeed
            && (forall b :: b in blended.next.boneDecays ==> blended.next.boneDecays[b] == 0.0)
  {
  }

  /**
    With get-up disabled a ragdoll stays Ragdolled on every physics step,
    however settled it is.
   */
  lemma DisabledGetUpStaysRagdolled(s: Setup, c: Controller, now: real, dt: real, input: PhysicsInput)
    requires Valid(s, c) && Configured(s) && c.state == Ragdolled && s.disableGetUp
    requires FitsRig(input, s.rig.value)
    ensures FixedUpdate(s, c, now, dt, input).next.state == Ragdolled
  {
  }

  /**
    Halfway through the blend the saved ragdoll pose is loaded with weight
    one half and the controller keeps blending.
   */
  lemma BlendHalfway(s: Setup, c: Controller, now: real, dt: real, frame: FrameInput)
    requires Valid(s, c) && Configured(s) && c.state == BlendToAnimated
    requires 0.0 < s.profile.value.blendTime
    requires 2.0 * (now - c.stateStartTime) == s.profile.value.blendTime
    ensures var r := LateUpdate(s, c, now, dt, frame);
            r.next.state == BlendToAnimated && r.effects == [LoadSnapshot(0.5)]
  {
    var bt := s.profile.value.blendTime;
    var b := BlendWeight(now - c.stateStartTime, bt);
    assert b * bt == now - c.stateStartTime;
    var d := b - 0.5;
    assert d * bt == b * bt - 0.5 * bt;
    assert d * bt == 0.0;
    ZeroFactor(d, bt);
  }

  /** A product with a positive factor is zero only when the other factor is. */
  lemma ZeroFactor(d: real, k: real)
    requires 0.0 < k && d * k == 0.0
    ensures d == 0.0
  {
  }

  // ---------------------------------------------------------------------------
  // Renderers
  // ---------------------------------------------------------------------------

  /**
    On a rendered frame, whenever ragdollRenderersEnabled changes, the frame
    switches the renderers to match: the ragdoll's on exactly when it reports
    them enabled, the master's the other way round.
   */
  lemma RenderersFollowState(s: Setup, c: Controller, now: real, dt: real, frame: FrameInput)
    requires Valid(s, c)
    ensures var r := LateUpdate(s, c, now, dt, frame);
            var on := RagdollRenderersEnabled(r.next);
            on != RagdollRenderersEnabled(c) ==> EnableRenderers(!on, on) in r.effects
  {
  }

  /** A physics step never changes ragdollRenderersEnabled. */
  lemma PhysicsStepKeepsRenderers(s: Setup, c: Controller, now: real, dt: real, input: PhysicsInput)
    requires Valid(s, c) && (Configured(s) ==> FitsRig(input, s.rig.value))
    ensures RagdollRenderersEnabled(FixedUpdate(s, c, now, dt, input).next) == RagdollRenderersEnabled(c)
  {
  }

  /**
    GoRagdoll during the get-up leaves the cycle: it jumps from
    TeleportMasterToRagdoll or BlendToAnimated straight back to capturing
    animation velocities, and ragdollRenderersEnabled turns false although
    no renderer is switched (the ragdoll stays visible until the fall starts).
   */
  lemma GoRagdollInterruptsGetUp(s: Setup, c: Controller, now: real)
    requires Valid(s, c) && Configured(s)
    requires c.state == TeleportMasterToRagdoll || c.state == BlendToAnimated
    ensures var r := GoRagdoll(s, c, now);
            && r.next.state == CalculateAnimationVelocity && r.next.state != Succ(c.state)
            && RagdollRenderersEnabled(c) && !RagdollRenderersEnabled(r.next)
            && (forall e :: e in r.effects ==> !e.EnableRenderers?)
  {
  }

  // ---------------------------------------------------------------------------
  // Manual bone decay reaching the velocity pass
  // ---------------------------------------------------------------------------

  /**
    Hitting a bone with a full decay during the fall makes the next physics
    step leave that bone alone: its velocity is not written and its joint gets
    no target rotation.
   */
  lemma FullHitReleasesBone(s: Setup, c: Controller, bone: BoneId, now: real, dt: real,
                            input: PhysicsInput)
    requires Valid(s, c) && Configured(s) && c.state == Falling && FitsRig(input, s.rig.value)
    requires bone in c.boneDecays && 0.0 <= c.boneDecays[bone]
    ensures var hit := SetBoneDecay(s, c, bone, 1.0, 0.0);
            var r := FixedUpdate(s, hit, now, dt, input);
            var i := IndexOf(s.rig.value, bone);
            i < |r.bones| && r.bones[i].velocity.None? && !r.bones[i].joint.setsTarget
  {
  }

  /**
    A hit with neighbour spread: the bone gains its decay and each of two
    distinct listed neighbours gains the neighbour decay, once.
   */
  lemma HitSpreadsToNeighbors(s: Setup, c: Controller, bone: BoneId, a: BoneId, b: BoneId,
                              decayValue: real, neighborDecay: real)
    requires Valid(s, c) && bone in c.boneDecays && a in c.boneDecays && b in c.boneDecays
    requires NeighborsOf(s, c, bone) == [a, b] && a != b && a != bone && b != bone
    requires 0.0 < neighborDecay
    ensures var r := SetBoneDecay(s, c, bone, decayValue, neighborDecay).boneDecays;
            && r[bone] == c.boneDecays[bone] + decayValue
            && r[a] == c.boneDecays[a] + neighborDecay
            && r[b] == c.boneDecays[b] + neighborDecay
  {
    BD.SpreadToTwo(c.boneDecays, bone, a, b, decayValue, neighborDecay);
  }

  // ---------------------------------------------------------------------------
  // Any run of calls
  // ---------------------------------------------------------------------------

  /** The calls the engine and gameplay code make on the controller. */
  datatype Event =
    | GoRagdollCall(now: real)
    | LateUpdateCall(now: real, deltaTime: real, frame: FrameInput)
    | FixedUpdateCall(now: real, deltaTime: real, input: PhysicsInput)
    | SetBoneDecayCall(bone: BoneId, decayValue: real, neighborDecay: real)
    | StorePhysicsCall(callback: Callback)
    | SetFallSpeedCall(fallSpeed: real)

  /** Physics inputs carry one velocity per physics bone. */
  predicate Fits(s: Setup, e: Event)
  {
    e.FixedUpdateCall? && Configured(s) ==> FitsRig(e.input, s.rig.value)
  }

  /**
    One call: every state change is a step along the cycle, except that
    GoRagdoll may jump back to capturing animation velocities.
   */
  function Apply(s: Setup, c: Controller, e: Event): (r: Controller)
    requires Valid(s, c) && Fits(s, e)
    ensures Valid(s, r)
    ensures r.state == c.state || r.state == Succ(c.state)
            || (e.GoRagdollCall? && r.state == CalculateAnimationVelocity)
  {
    match e
    case GoRagdollCall(now) => GoRagdoll(s, c, now).next
    case LateUpdateCall(now, dt, frame) => LateUpdate(s, c, now, dt, frame).next
    case FixedUpdateCall(now, dt, input) => FixedUpdate(s, c, now, dt, input).next
    case SetBoneDecayCall(bone, v, nv) => SetBoneDecay(s, c, bone, v, nv)
    case StorePhysicsCall(callback) => StorePhysics(s, c, callback)
    case SetFallSpeedCall(speed) => SetFallSpeed(s, c, speed)
  }

  /**
    Any run of calls keeps the invariant: the fall decay stays in [0,1] and
    is 0 outside Falling, the bone-decay table tracks exactly the physics
    bones, and a controller missing a reference never leaves Animated.
   */
  function Run(s: Setup, c: Controller, events: seq<Event>): (r: Controller)
    requires Valid(s, c)
    requires forall i :: 0 <= i < |events| ==> Fits(s, events[i])
    ensures Valid(s, r)
    ensures 0.0 <= r.fallDecay <= 1.0 && (r.state != Falling ==> r.fallDecay == 0.0)
    ensures Configured(s) ==> r.boneDecays.Keys == Ids(s.rig.value)
    ensures !Configured(s) ==> r.state == Animated && r.boneDecays == map[]
    decreases |events|
  {
    if |events| == 0 then c else Run(s, Apply(s, c, events[0]), events[1..])
  }

  /** From Awake, any run of calls keeps the invariant. */
  lemma AwakeThenAnyRun(s: Setup, now: real, events: seq<Event>)
    requires Configured(s) ==> WellFormed(s.profile.value, s.rig.value)
    requires forall i :: 0 <= i < |events| ==> Fits(s, events[i])
    ensures var r := Run(s, Awake(s, now).next, events);
            && 0.0 <= r.fallDecay <= 1.0
            && (r.state != Falling ==> r.fallDecay == 0.0)
            && (!Configured(s) ==> r.state == Animated)
  {
  }
}

=== FILE: fall_decay.dfy ===
/**
  The fall decay: the global strength in [0,1] with which a falling ragdoll
  still chases the animation. It is 1 when the fall starts and is eased
  toward 0 once per rendered frame; below a small epsilon it snaps to exactly
  0, which is what ends the fall.
 */
module FallDecay {
  import opened Numerics

  /** Below this the fall decay snaps to 0. */
  const Epsilon: real := 0.0001

  /** The fall-speed value that means "use the profile's default speed". */
  const UseProfileSpeed: real := -1.0

  /** The easing amount of one frame: the override unless it is -1, times deltaTime. */
  function FallLerpSpeed(fallSpeed: real, profileSpeed: real, deltaTime: real): (speed: real)
    ensures fallSpeed == UseProfileSpeed ==> speed == profileSpeed * deltaTime
    ensures fallSpeed != UseProfileSpeed ==> speed == fallSpeed * deltaTime
  {
    (if fallSpeed == UseProfileSpeed then profileSpeed else fallSpeed) * deltaTime
  }

  /**
    HandleFallLerp: one frame of easing. A zero decay is left alone;
    otherwise it is interpolated toward 0 by `speed` (clamped to [0,1]) and
    snaps to 0 when the result is at most Epsilon.
   */
  function HandleFallLerp(fallDecay: real, speed: real): (r: real)
    ensures fallDecay == 0.0 ==> r == 0.0
    ensures 0.0 <= fallDecay <= 1.0 ==> 0.0 <= r <= fallDecay
    ensures r == 0.0 || Epsilon < r
    ensures fallDecay != 0.0 && 1.0 <= speed ==> r == 0.0
    ensures Epsilon < fallDecay && speed <= 0.0 ==> r == fallDecay
    ensures fallDecay != 0.0 ==> (r == 0.0 <==> fallDecay * (1.0 - Clamp01(speed)) <= Epsilon)
    ensures r != 0.0 ==> r == fallDecay * (1.0 - Clamp01(speed))
  {
    if fallDecay != 0.0 then
      var eased := Lerp(fallDecay, 0.0, speed);
      if eased <= Epsilon then 0.0 else eased
    else
      fallDecay
  }

  /** The fall decay after `n` frames with the same easing amount. */
  function FallLerpSteps(fallDecay: real, speed: real, n: nat): real
  {
    if n == 0 then fallDecay else HandleFallLerp(FallLerpSteps(fallDecay, speed, n - 1), speed)
  }

  /** Over any number of frames the decay stays in [0, start] and never increases. */
  lemma {:induction false} FallDecayNonIncreasing(fallDecay: real, speed: real, n: nat)
    requires 0.0 <= fallDecay <= 1.0
    ensures 0.0 <= FallLerpSteps(fallDecay, speed, n) <= fallDecay
    ensures FallLerpSteps(fallDecay, speed, n + 1) <= FallLerpSteps(fallDecay, speed, n)
  {
    if n > 0 {
      FallDecayNonIncreasing(fallDecay, speed, n - 1);
    }
  }

  /** Once the decay is 0 it stays 0. */
  lemma {:induction false} ZeroStaysZero(speed: real, n: nat)
    ensures FallLerpSteps(0.0, speed, n) == 0.0
  {
    if n > 0 {
      ZeroStaysZero(speed, n - 1);
    }
  }

  /** The guaranteed loss of one frame. */
  function FrameLoss(speed: real): real
  {
    Clamp01(speed) * Epsilon
  }

  /** One frame that does not end the fall removes at least one frame loss. */
  lemma FrameProgress(fallDecay: real, speed: real)
    requires Epsilon < fallDecay <= 1.0
    ensures HandleFallLerp(fallDecay, speed) == 0.0
            || HandleFallLerp(fallDecay, speed) <= fallDecay - FrameLoss(speed)
  {
    var t := Clamp01(speed);
    assert Lerp(fallDecay, 0.0, speed) == fallDecay + (0.0 - fallDecay) * t;
    assert (0.0 - fallDecay) * t == -(fallDecay * t);
    ProductNonNegative(fallDecay - Epsilon, t);
    assert (fallDecay - Epsilon) * t == fallDecay * t - Epsilon * t;
  }

  /** What is left of the start value after n frame losses. */
  function Budget(fallDecay: real, speed: real, n: nat): real
  {
    if n == 0 then fallDecay else Budget(fallDecay, speed, n - 1) - FrameLoss(speed)
  }

  /** n frame losses taken one at a time are n times one loss. */
  lemma {:induction false} BudgetIsLinear(fallDecay: real, speed: real, n: nat)
    ensures Budget(fallDecay, speed, n) == fallDecay - (n as real) * FrameLoss(speed)
  {
    if n > 0 {
      BudgetIsLinear(fallDecay, speed, n - 1);
      var d := FrameLoss(speed);
      assert ((n - 1) as real) * d + d == (n as real) * d;
    }
  }

  /** After n frames the decay is 0 or has lost at least n frame losses. */
  lemma {:induction false} FallProgress(fallDecay: real, speed: real, n: nat)
    requires 0.0 <= fallDecay <= 1.0
    ensures FallLerpSteps(fallDecay, speed, n) == 0.0
            || FallLerpSteps(fallDecay, speed, n) <= Budget(fallDecay, speed, n)
  {
    if n > 0 {
      FallProgress(fallDecay, speed, n - 1);
      FallDecayNonIncreasing(fallDecay, speed, n - 1);
      var prev := FallLerpSteps(fallDecay, speed, n - 1);
      if Epsilon < prev {
        FrameProgress(prev, speed);
      }
    }
  }

  /** n frame losses exceed 1 as soon as n exceeds the reciprocal of one loss. */
  lemma AboveReciprocal(d: real, x: real, n: real)
    requires 0.0 < d && x * d == 1.0 && x < n
    ensures 1.0 < n * d
  {
    var p := x * d;
    var q := n * d;
    assert p < q by {
      ProductPositive(n - x, d);
      assert (n - x) * d == q - p;
    }
    assert p < q && p == 1.0;
  }

  lemma FloorFacts(x: real)
    requires 0.0 <= x
    ensures 0 <= x.Floor && x < (x.Floor + 1) as real
  {
  }

  lemma Reciprocal(d: real)
    requires 0.0 < d
    ensures 0.0 < 1.0 / d && (1.0 / d) * d == 1.0
  {
  }

  /** Enough frame losses exhaust any start value in [0,1]. */
  lemma BudgetRunsOut(fallDecay: real, speed: real) returns (n: nat)
    requires fallDecay <= 1.0 && 0.0 < speed
    ensures Budget(fallDecay, speed, n) < 0.0
  {
    var d := FrameLoss(speed);
    assert 0.0 < d by {
      ProductPositive(Clamp01(speed), Epsilon);
    }
    Reciprocal(d);
    var x := 1.0 / d;
    FloorFacts(x);
    n := x.Floor + 1;
    AboveReciprocal(d, x, n as real);
    BudgetIsLinear(fallDecay, speed, n);
  }

  /**
    With a positive easing speed the fall ends: some number of frames brings
    any fall decay in [0,1] to exactly 0 (about 1 / (speed * Epsilon) frames
    at most), and it stays 0 from then on.
   */
  lemma FallDecayReachesZero(fallDecay: real, speed: real)
    requires 0.0 <= fallDecay <= 1.0 && 0.0 < speed
    ensures exists n: nat :: FallLerpSteps(fallDecay, speed, n) == 0.0
  {
    var n := BudgetRunsOut(fallDecay, speed);
    FallProgress(fallDecay, speed, n);
    FallDecayNonIncreasing(fallDecay, speed, n);
  }
}

=== FILE: joint_drive.dfy ===
/**
  The joint-drive cache shared by the blend controller's joint follow and the
  physical bone tracker: the drive spring is rewritten only when the torque
  differs from the cached one, and the joint's target rotation is recomputed
  only for a nonzero torque. Target rotations are quaternions, which this
  model does not compute; only whether one is written is recorded.
 */
module JointDrive {
  import opened Wrappers
  import opened Numerics

  /**
    What one follow step does to a joint: the spring it writes (if any),
    whether it writes the target rotation, and the torque cached afterwards.
   */
  datatype DriveUpdate = DriveUpdate(spring: Option<real>, setsTarget: bool, lastTorque: real)

  function FollowJoint(hasJoint: bool, torque: real, lastTorque: real): (r: DriveUpdate)
    ensures !hasJoint ==> r == DriveUpdate(None, false, lastTorque)
    ensures hasJoint ==> r.lastTorque == torque
    ensures hasJoint ==> (r.spring.Some? <==> torque != lastTorque)
    ensures r.spring.Some? ==> r.spring.value == torque
    ensures r.setsTarget <==> hasJoint && torque != 0.0
  {
    if !hasJoint then DriveUpdate(None, false, lastTorque)
    else
      var spring := if torque != lastTorque then Some(torque) else None;
      DriveUpdate(spring, torque != 0.0, torque)
  }

  /** A second follow step with the same torque writes no spring. */
  lemma RepeatedTorqueWritesNothing(hasJoint: bool, torque: real, lastTorque: real)
    ensures FollowJoint(hasJoint, torque, FollowJoint(hasJoint, torque, lastTorque).lastTorque).spring == None
  {
  }

  /**
    The joint as the engine sees it (its drive spring) together with the
    cache, after a series of follow steps with the given torques.
   */
  datatype Joint = Joint(spring: real, lastTorque: real)

  function ApplyTorques(j: Joint, torques: seq<real>): (r: Joint)
    decreases |torques|
  {
    if |torques| == 0 then j
    else
      var u := FollowJoint(true, torques[0], j.lastTorque);
      var spring := if u.spring.Some? then u.spring.value else j.spring;
      ApplyTorques(Joint(spring, u.lastTorque), torques[1..])
  }

  /** The cache agrees with the joint: the spring is the cached torque. */
  predicate Coherent(j: Joint)
  {
    j.spring == j.lastTorque
  }

  /**
    Skipping writes loses nothing once the cache agrees with the joint: the
    spring is always the latest torque.
   */
  lemma {:induction false} CoherentJointTracksTorque(j: Joint, torques: seq<real>)
    requires Coherent(j)
    requires |torques| > 0
    ensures ApplyTorques(j, torques).spring == torques[|torques| - 1]
    ensures Coherent(ApplyTorques(j, torques))
    decreases |torques|
  {
    var u := FollowJoint(true, torques[0], j.lastTorque);
    var spring := if u.spring.Some? then u.spring.value else j.spring;
    var j' := Joint(spring, u.lastTorque);
    assert Coherent(j');
    if |torques| > 1 {
      CoherentJointTracksTorque(j', torques[1..]);
    }
  }

  /**
    A cache that starts out different from the first torque forces the first
    write, after which the spring always follows the latest torque, whatever
    the joint's initial spring was.
   */
  lemma {:induction false} FirstWriteMakesCoherent(j: Joint, torques: seq<real>)
    requires |torques| > 0 && torques[0] != j.lastTorque
    ensures ApplyTorques(j, torques).spring == torques[|torques| - 1]
  {
    var j' := Joint(torques[0], torques[0]);
    if |torques| > 1 {
      CoherentJointTracksTorque(j', torques[1..]);
    }
  }
}

=== FILE: numerics.dfy ===
/**
  Scalar helpers of the engine's math library (Mathf) as used by the blend
  controller, over mathematical reals instead of IEEE floats.
 */
module Numerics {

  function Abs(x: real): (r: real)
    ensures 0.0 <= r
    ensures r == x || r == -x
  {
    if x < 0.0 then -x else x
  }

  function Min(a: real, b: real): real { if a <= b then a else b }

  function Max(a: real, b: real): real { if a <= b then b else a }

  /** Mathf.Clamp01: the nearest value of [0,1]. */
  function Clamp01(x: real): (r: real)
    ensures 0.0 <= r <= 1.0
    ensures 0.0 <= x <= 1.0 ==> r == x
    ensures x <= 0.0 ==> r == 0.0
    ensures 1.0 <= x ==> r == 1.0
  {
    if x < 0.0 then 0.0 else if x > 1.0 then 1.0 else x
  }

  /** A product of two non-negative reals is non-negative. */
  lemma ProductNonNegative(x: real, y: real)
    requires 0.0 <= x && 0.0 <= y
    ensures 0.0 <= x * y
  {
  }

  /** A product of two positive reals is positive. */
  lemma ProductPositive(x: real, y: real)
    requires 0.0 < x && 0.0 < y
    ensures 0.0 < x * y
  {
  }

  /** (b - a) * s lies between 0 and b - a when s is a fraction. */
  lemma ScaledDifferenceBounds(a: real, b: real, s: real)
    requires 0.0 <= s <= 1.0
    ensures a <= b ==> 0.0 <= (b - a) * s <= b - a
    ensures b < a ==> b - a <= (b - a) * s <= 0.0
  {
    if a <= b {
      ProductNonNegative(b - a, s);
      ProductNonNegative(b - a, 1.0 - s);
    } else {
      ProductNonNegative(a - b, s);
      ProductNonNegative(a - b, 1.0 - s);
    }
  }

  /**
    Mathf.Lerp: interpolation from `a` (t = 0) to `b` (t = 1), with `t`
    clamped to [0,1] first, so the result never leaves the segment.
   */
  function Lerp(a: real, b: real, t: real): (r: real)
    ensures Min(a, b) <= r <= Max(a, b)
    ensures t <= 0.0 ==> r == a
    ensures 1.0 <= t ==> r == b
    ensures 0.0 <= t <= 1.0 ==> r == a + (b - a) * t
  {
    ScaledDifferenceBounds(a, b, Clamp01(t));
    a + (b - a) * Clamp01(t)
  }

  /**
    The one of `a`, `b` with the larger magnitude; on equal magnitudes
    the second argument wins.
   */
  function MaxAbs(a: real, b: real): (r: real)
    ensures r == a || r == b
    ensures Abs(r) == Max(Abs(a), Abs(b))
    ensures Abs(a) == Abs(b) ==> r == b
  {
    if Abs(a) > Abs(b) then a else b
  }
}

=== FILE: profiles.dfy ===
/**
  Static configuration: the controller profile (global constants and one bone
  profile per physics bone) and the rig (the ordered physics bones of the
  ragdoll, which the controller reads but never changes).
 */
module Profiles {

  /** An engine bone identifier (a HumanBodyBones value). */
  type BoneId = nat

  /**
    Per-bone settings. The two decay curves are authored animation curves;
    their evaluation is not modelled and they are taken as given functions.
   */
  datatype BoneProfile = BoneProfile(
    fallForceDecay: real -> real,
    fallTorqueDecay: real -> real,
    neighbors: seq<BoneId>,
    inputForce: real,
    maxForce: real,
    maxTorque: real)

  datatype Profile = Profile(
    bones: seq<BoneProfile>,
    maxTorque: real,
    fallDecaySpeed: real,
    maxGravityAddVelocity: real,
    ragdollMinTime: real,
    settledSpeed: real,
    orientateDelay: real,
    blendTime: real,
    PForce: real,
    DForce: real)

  /** A physics bone of the ragdoll; only the root (index 0) lacks a joint. */
  datatype RigBone = RigBone(id: BoneId, hasJoint: bool)

  datatype Rig = Rig(bones: seq<RigBone>)

  function Ids(rig: Rig): set<BoneId>
  {
    set i | 0 <= i < |rig.bones| :: rig.bones[i].id
  }

  predicate DistinctIds(rig: Rig)
  {
    forall i, j :: 0 <= i < j < |rig.bones| ==> rig.bones[i].id != rig.bones[j].id
  }

  /**
    A profile that fits the rig: one bone profile per physics bone, a root
    bone, distinct bone ids, a joint on every bone but the root (the joint
    following setup reads each of them), and a nonzero blend time (the blend
    weight divides by it).
   */
  predicate WellFormed(p: Profile, rig: Rig)
  {
    && 0 < |rig.bones|
    && |p.bones| == |rig.bones|
    && DistinctIds(rig)
    && (forall i :: 1 <= i < |rig.bones| ==> rig.bones[i].hasJoint)
    && p.blendTime != 0.0
  }

  /** The physics-bone index of a tracked bone. */
  function IndexOf(rig: Rig, id: BoneId): (i: nat)
    requires id in Ids(rig)
    ensures i < |rig.bones| && rig.bones[i].id == id
    decreases |rig.bones|
  {
    if rig.bones[0].id == id then 0
    else
      assert id in Ids(Rig(rig.bones[1..])) by {
        var k :| 0 <= k < |rig.bones| && rig.bones[k].id == id;
        assert rig.bones[1..][k - 1].id == id;
      }
      1 + IndexOf(Rig(rig.bones[1..]), id)
  }
}

=== FILE: ragdoll_controller.dfy ===
/**
  The ragdoll blend controller: an explicit state machine over an immutable
  controller record. Time (`now`) and frame times are parameters; the engine
  state the controller reads comes in as FrameInput / PhysicsInput, and what
  it asks the engine to do comes back as a list of effects.

  Its cycle is Animated -> CalculateAnimationVelocity -> Falling -> Ragdolled
  -> TeleportMasterToRagdoll -> BlendToAnimated -> Animated. GoRagdoll starts
  it; LateUpdate (once per rendered frame) and FixedUpdate (once per physics
  step) drive it.
 */
module RagdollController {
  import opened Wrappers
  import opened Numerics
  import V = Vectors
  import opened Profiles
  import BD = BoneDecay
  import FD = FallDecay
  import JD = JointDrive
  import VP = VelocityPass

  datatype State =
    | Animated
    | CalculateAnimationVelocity
    | Falling
    | Ragdolled
    | TeleportMasterToRagdoll
    | BlendToAnimated

  /** The state that follows `s` on the controller's cycle. */
  function Succ(s: State): State
  {
    match s
    case Animated => CalculateAnimationVelocity
    case CalculateAnimationVelocity => Falling
    case Falling => Ragdolled
    case Ragdolled => TeleportMasterToRagdoll
    case TeleportMasterToRagdoll => BlendToAnimated
    case BlendToAnimated => Animated
  }

  /** A deferred physics callback (an opaque action, compared by identity). */
  datatype Callback = Callback(id: nat)

  /**
    What is set up in the editor and read by every operation: the controller
    profile and the ragdoll (None when the reference is missing) and whether
    the automatic get-up is disabled.
   */
  datatype Setup = Setup(profile: Option<Profile>, rig: Option<Rig>, disableGetUp: bool)

  /**
    The controller's runtime state. `fallSpeed` -1 means "use the profile's
    fall-decay speed"; `lastTorques` caches the joint torque last written per
    physics bone.
   */
  datatype Controller = Controller(
    state: State,
    stateStartTime: real,
    fallDecay: real,
    fallSpeed: real,
    boneDecays: BD.DecayTable,
    physicsCallbacks: set<Callback>,
    calculatedAnimationVelocityFrames: int,
    lastTorques: seq<real>)

  /** How long after returning to Animated the controller reports it is getting up. */
  const GetUpTime: real := 2.5

  /** Animation-velocity capture frames before the fall starts. */
  const TargetFrames: int := 1

  /** The stateStartTime before any state change. */
  const InitialStateStartTime: real := -100.0

  /** Both references are present; otherwise the controller is inert. */
  predicate Configured(s: Setup)
  {
    s.profile.Some? && s.rig.Some?
  }

  /** The controller's invariant, kept by every operation. */
  predicate Valid(s: Setup, c: Controller)
  {
    && 0.0 <= c.fallDecay <= 1.0
    && (c.state != Falling ==> c.fallDecay == 0.0)
    && c.calculatedAnimationVelocityFrames == 0
    && (Configured(s) ==>
          && WellFormed(s.profile.value, s.rig.value)
          && c.boneDecays.Keys == Ids(s.rig.value)
          && |c.lastTorques| == |s.rig.value.bones|)
    && (!Configured(s) ==> c.boneDecays == map[] && c.state == Animated)
  }

  datatype TeleportType = All | PhysicsBonesAndParents

  datatype CullingMode = AlwaysAnimate | OriginalCulling

  /** The engine calls the controller makes. */
  datatype Effect =
    | ResetVelocityTrackers
    | TrackVelocities(deltaTime: real)
    | TeleportRagdoll(kind: TeleportType)
    | SetKinematic(kinematic: bool)
    | EnableRenderers(master: bool, ragdoll: bool)
    | SetCulling(mode: CullingMode)
    | SaveSnapshot
    | LoadSnapshot(snapshotWeight: real)
    | GetUpTrigger(onBack: bool)
    | PlaceMaster(position: V.Vec3)
    | RunPhysicsCallbacks(callbacks: set<Callback>)

  datatype Step = Step(next: Controller, effects: seq<Effect>)

  /**
    What LateUpdate reads from the engine: the master's position, the
    ragdoll's and the master's hips positions, and the height where a short
    downward ray from above the reoriented master hits the ground (if it does).
   */
  datatype FrameInput = FrameInput(masterPosition: V.Vec3, ragdollHipsPosition: V.Vec3,
                                   masterHipsPosition: V.Vec3, groundHeight: Option<real>)

  /**
    What FixedUpdate reads from the engine: every physics bone's rigid-body
    velocity (index 0 is the root), every bone's tracked animation velocity,
    gravity, and the ragdoll root's forward direction.
   */
  datatype PhysicsInput = PhysicsInput(velocities: seq<V.Vec3>, animationVelocities: seq<V.Vec3>,
                                       gravity: V.Vec3, hipsForward: V.Vec3)

  predicate FitsRig(input: PhysicsInput, rig: Rig)
  {
    |input.velocities| == |rig.bones| && |input.animationVelocities| == |rig.bones|
  }

  /** A physics step: effects, plus the per-bone velocity pass when one ran. */
  datatype PhysicsStep = PhysicsStep(next: Controller, effects: seq<Effect>, bones: seq<VP.BoneFollow>)

  /** The data a state change leaves alone. */
  predicate SameEpisodeData(a: Controller, b: Controller)
  {
    && a.fallDecay == b.fallDecay && a.fallSpeed == b.fallSpeed && a.boneDecays == b.boneDecays
    && a.physicsCallbacks == b.physicsCallbacks && a.lastTorques == b.lastTorques
  }

  // ---------------------------------------------------------------------------
  // Setup and public API
  // ---------------------------------------------------------------------------

  /**
    Awake: with both references present, the joint-torque cache starts at -1
    for every jointed bone, physics is switched off, the controller enters
    Animated and every bone decay is 0. A missing reference leaves the
    initial field values and makes no engine call.
   */
  function Awake(s: Setup, now: real): (r: Step)
    requires Configured(s) ==> WellFormed(s.profile.value, s.rig.value)
    ensures Valid(s, r.next)
    ensures r.next.state == Animated && r.next.fallSpeed == FD.UseProfileSpeed
    ensures r.next.fallDecay == 0.0 && r.next.physicsCallbacks == {}
    ensures Configured(s) ==>
      && r.next.stateStartTime == now
      && (forall b :: b in Ids(s.rig.value) ==> r.next.boneDecays[b] == 0.0)
      && (forall i :: 1 <= i < |r.next.lastTorques| ==> r.next.lastTorques[i] == -1.0)
      && r.effects == [SetKinematic(true), SetCulling(OriginalCulling), EnableRenderers(true, false)]
    ensures !Configured(s) ==> r.effects == [] && r.next.stateStartTime == InitialStateStartTime
  {
    if !Configured(s) then
      Step(Controller(Animated, InitialStateStartTime, 0.0, FD.UseProfileSpeed, map[], {}, 0, []), [])
    else
      var n := |s.rig.value.bones|;
      var torques := seq(n, i requires 0 <= i < n => if i == 0 then 0.0 else -1.0);
      var c := Controller(Animated, now, 0.0, FD.UseProfileSpeed,
                          BD.ResetBoneDecays(map[], s.rig.value), {}, 0, torques);
      Step(c, [SetKinematic(true), SetCulling(OriginalCulling), EnableRenderers(true, false)])
  }

  /** ChangeRagdollState: the new state, entered at `now`. */
  function ChangeRagdollState(c: Controller, state: State, now: real): (r: Controller)
    ensures r.state == state && r.stateStartTime == now && SameEpisodeData(r, c)
    ensures r.calculatedAnimationVelocityFrames == c.calculatedAnimationVelocityFrames
  {
    c.(state := state, stateStartTime := now)
  }

  /** The states in which GoRagdoll is ignored (a fall is already under way). */
  predicate Busy(state: State)
  {
    state == CalculateAnimationVelocity || state == Falling || state == Ragdolled
  }

  /**
    GoRagdoll: ignored when a reference is missing or a fall is under way;
    otherwise the animation velocity trackers are reset, the capture counter
    goes to 0 and the controller enters CalculateAnimationVelocity.
   */
  function GoRagdoll(s: Setup, c: Controller, now: real): (r: Step)
    requires Valid(s, c)
    ensures Valid(s, r.next)
    ensures r.next == c <==> !Configured(s) || Busy(c.state)
    ensures !Configured(s) || Busy(c.state) ==> r.effects == []
    ensures Configured(s) && !Busy(c.state) ==>
      && r.next.state == CalculateAnimationVelocity
      && r.next.stateStartTime == now
      && SameEpisodeData(r.next, c)
      && r.effects == [ResetVelocityTrackers]
  {
    if !Configured(s) then Step(c, [])
    else if Busy(c.state) then Step(c, [])
    else
      var c' := ChangeRagdollState(c.(calculatedAnimationVelocityFrames := 0),
                                   CalculateAnimationVelocity, now);
      Step(c', [ResetVelocityTrackers])
  }

  /** SetFallSpeed: the easing speed for the next fall (-1 restores the profile's). */
  function SetFallSpeed(s: Setup, c: Controller, fallSpeed: real): (r: Controller)
    requires Valid(s, c)
    ensures Valid(s, r)
    ensures r.fallSpeed == fallSpeed
    ensures r == c.(fallSpeed := r.fallSpeed)
    ensures r.state == c.state && r.fallDecay == c.fallDecay && r.boneDecays == c.boneDecays
  {
    c.(fallSpeed := fallSpeed)
  }

  /**
    StorePhysics: defers a physics callback until the ragdoll is physical.
    Callbacks form a set, so storing one twice keeps one copy.
   */
  function StorePhysics(s: Setup, c: Controller, callback: Callback): (r: Controller)
    requires Valid(s, c)
    ensures Valid(s, r)
    ensures r.physicsCallbacks == c.physicsCallbacks + {callback}
    ensures r == c.(physicsCallbacks := r.physicsCallbacks)
    ensures r.state == c.state && r.fallDecay == c.fallDecay && r.boneDecays == c.boneDecays
  {
    c.(physicsCallbacks := c.physicsCallbacks + {callback})
  }

  /** The neighbours listed in the profile for a tracked bone. */
  function NeighborsOf(s: Setup, c: Controller, bone: BoneId): seq<BoneId>
    requires Valid(s, c)
  {
    if bone in c.boneDecays then
      s.profile.value.bones[IndexOf(s.rig.value, bone)].neighbors
    else []
  }

  /**
    SetBoneDecay: an untracked bone is ignored; otherwise its decay grows by
    `decayValue` and, for a positive `neighborDecay`, each listed neighbour's
    by `neighborDecay`.
   */
  function SetBoneDecay(s: Setup, c: Controller, bone: BoneId, decayValue: real,
                        neighborDecay: real): (r: Controller)
    requires Valid(s, c)
    ensures Valid(s, r)
    ensures bone !in c.boneDecays ==> r == c
    ensures r == c.(boneDecays := r.boneDecays)
    ensures r.state == c.state && r.fallDecay == c.fallDecay && r.boneDecays.Keys == c.boneDecays.Keys
    ensures bone in c.boneDecays ==> forall k :: k in c.boneDecays ==>
      r.boneDecays[k] == c.boneDecays[k] + (if k == bone then decayValue else 0.0)
        + (if neighborDecay > 0.0 then neighborDecay * (multiset(NeighborsOf(s, c, bone))[k] as real) else 0.0)
  {
    c.(boneDecays := BD.SetBoneDecay(c.boneDecays, bone, decayValue, neighborDecay, NeighborsOf(s, c, bone)))
  }

  /**
    isGettingUp: the controller has been back in Animated for less than
    GetUpTime.
   */
  function IsGettingUp(c: Controller, now: real): (r: bool)
    ensures r ==> !RagdollRenderersEnabled(c)
    ensures r <==> c.state == Animated && now < c.stateStartTime + GetUpTime
    ensures c.state == Animated && now == c.stateStartTime ==> r
  {
    c.state == Animated && now - c.stateStartTime < GetUpTime
  }

  /** ragdollRenderersEnabled: the ragdoll, not the master, is visible. */
  function RagdollRenderersEnabled(c: Controller): (r: bool)
    ensures r <==> Physical(c.state) || c.state == TeleportMasterToRagdoll || c.state == BlendToAnimated
  {
    c.state != Animated && c.state != CalculateAnimationVelocity
  }

  // ---------------------------------------------------------------------------
  // LateUpdate: the pose phase
  // ---------------------------------------------------------------------------

  /**
    StartFallState: the fall decay starts at 1, the ragdoll is teleported
    onto the animated pose, physics and the ragdoll's renderers are switched
    on, the animator keeps animating although hidden, and the state is Falling.
   */
  function StartFallState(c: Controller, now: real): (r: Step)
    ensures r.next.state == Falling && r.next.fallDecay == 1.0 && r.next.stateStartTime == now
    ensures r.next.boneDecays == c.boneDecays && r.next.physicsCallbacks == c.physicsCallbacks
    ensures r.next.lastTorques == c.lastTorques && r.next.fallSpeed == c.fallSpeed
    ensures r.next.calculatedAnimationVelocityFrames == c.calculatedAnimationVelocityFrames
    ensures r.effects == [TeleportRagdoll(All), SetKinematic(false), EnableRenderers(false, true),
                          SetCulling(AlwaysAnimate)]
  {
    Step(ChangeRagdollState(c.(fallDecay := 1.0), Falling, now),
         [TeleportRagdoll(All), SetKinematic(false), EnableRenderers(false, true), SetCulling(AlwaysAnimate)])
  }

  /**
    CalculateAnimationVelocities: the trackers sample only while the fall
    decay is nonzero.
   */
  function SampleAnimationVelocities(c: Controller, deltaTime: real): (e: seq<Effect>)
    ensures e == [] || e == [TrackVelocities(deltaTime)]
    ensures e != [] <==> c.fallDecay != 0.0
  {
    if c.fallDecay != 0.0 then [TrackVelocities(deltaTime)] else []
  }

  /**
    UpdateLoop: in CalculateAnimationVelocity and Falling the animation
    velocities are sampled; in CalculateAnimationVelocity one capture frame
    then starts the fall.
   */
  function UpdateLoop(c: Controller, now: real, deltaTime: real): (r: Step)
    requires c.calculatedAnimationVelocityFrames == 0
    ensures c.state != CalculateAnimationVelocity ==> r.next == c
    ensures c.state == Falling ==> r.effects == SampleAnimationVelocities(c, deltaTime)
    ensures c.state != CalculateAnimationVelocity && c.state != Falling ==> r.effects == []
    ensures c.state == CalculateAnimationVelocity ==>
      && r.next.state == Falling && r.next.fallDecay == 1.0 && r.next.stateStartTime == now
      && r.next.calculatedAnimationVelocityFrames == 0
      && SameEpisodeData(r.next, c.(fallDecay := 1.0))
      && r.effects == SampleAnimationVelocities(c, deltaTime) + StartFallState(c, now).effects
  {
    if c.state == CalculateAnimationVelocity || c.state == Falling then
      var sampled := SampleAnimationVelocities(c, deltaTime);
      if c.state == CalculateAnimationVelocity then
        var frames := c.calculatedAnimationVelocityFrames + 1;
        if frames >= TargetFrames then
          var fall := StartFallState(c.(calculatedAnimationVelocityFrames := 0), now);
          Step(fall.next, sampled + fall.effects)
        else
          Step(c.(calculatedAnimationVelocityFrames := frames), sampled)
      else
        Step(c, sampled)
    else
      Step(c, [])
  }

  /** Facts about elapsed / blendTime, for a positive blend time. */
  lemma BlendRatio(elapsed: real, blendTime: real)
    requires blendTime != 0.0
    ensures 0.0 < blendTime ==> (elapsed / blendTime < 1.0 <==> elapsed < blendTime)
    ensures 0.0 < blendTime && 0.0 <= elapsed ==> 0.0 <= elapsed / blendTime
  {
    if 0.0 < blendTime {
      var q := elapsed / blendTime;
      assert q * blendTime == elapsed;
      if q < 1.0 {
        ProductPositive(1.0 - q, blendTime);
        assert (1.0 - q) * blendTime == blendTime - q * blendTime;
      } else {
        ProductNonNegative(q - 1.0, blendTime);
        assert (q - 1.0) * blendTime == q * blendTime - blendTime;
      }
    }
  }

  /**
    HandleBlendToAnimation's blend amount: elapsed / blendTime, capped at 1.
    With a positive blend time it is 1 exactly once blendTime has elapsed.
   */
  function BlendWeight(elapsed: real, blendTime: real): (b: real)
    requires blendTime != 0.0
    ensures b <= 1.0
    ensures 0.0 < blendTime ==> (b == 1.0 <==> blendTime <= elapsed)
    ensures 0.0 < blendTime && 0.0 <= elapsed ==> 0.0 <= b
    ensures 0.0 < blendTime && elapsed < blendTime ==> b * blendTime == elapsed
  {
    BlendRatio(elapsed, blendTime);
    var b := elapsed / blendTime;
    if b > 1.0 then 1.0 else b
  }

  /**
    Where TeleportMasterToRagdoll puts the master: moved by the offset from
    the master's hips to the ragdoll's hips, with its height taken from the
    ground when the downward probe hits it.
   */
  function MasterPlacement(frame: FrameInput): (p: V.Vec3)
    ensures p.x == frame.masterPosition.x + (frame.ragdollHipsPosition.x - frame.masterHipsPosition.x)
    ensures p.z == frame.masterPosition.z + (frame.ragdollHipsPosition.z - frame.masterHipsPosition.z)
    ensures frame.groundHeight.Some? ==> p.y == frame.groundHeight.value
    ensures frame.groundHeight.None? ==>
      p.y == frame.masterPosition.y + (frame.ragdollHipsPosition.y - frame.masterHipsPosition.y)
  {
    var moved := V.Add(frame.masterPosition, V.Sub(frame.ragdollHipsPosition, frame.masterHipsPosition));
    match frame.groundHeight
    case Some(h) => moved.(y := h)
    case None => moved
  }

  /** The states whose LateUpdate case does any work. */
  predicate PoseWork(state: State)
  {
    state == Falling || state == TeleportMasterToRagdoll || state == BlendToAnimated
  }

  /** The per-state part of LateUpdate, before UpdateLoop. */
  function LateUpdateState(s: Setup, c: Controller, now: real, deltaTime: real, frame: FrameInput): (r: Step)
    requires Valid(s, c) && Configured(s)
    ensures Valid(s, r.next)
    ensures !PoseWork(c.state) ==> r == Step(c, [])
    ensures r.next.state == c.state || r.next.state == Succ(c.state)
    ensures r.next.state == CalculateAnimationVelocity ==> c.state == CalculateAnimationVelocity
    ensures r.next.physicsCallbacks == c.physicsCallbacks && r.next.boneDecays == c.boneDecays
    ensures r.next.lastTorques == c.lastTorques && r.next.fallSpeed == c.fallSpeed
  {
    var p := s.profile.value;
    match c.state
    case Falling =>
      var speed := FD.FallLerpSpeed(c.fallSpeed, p.fallDecaySpeed, deltaTime);
      Step(c.(fallDecay := FD.HandleFallLerp(c.fallDecay, speed)), [])
    case TeleportMasterToRagdoll =>
      if now - c.stateStartTime >= p.orientateDelay then
        Step(ChangeRagdollState(c, BlendToAnimated, now), [PlaceMaster(MasterPlacement(frame))])
      else
        Step(c, [])
    case BlendToAnimated =>
      var blend := BlendWeight(now - c.stateStartTime, p.blendTime);
      var load := [LoadSnapshot(1.0 - blend)];
      if blend == 1.0 then
        Step(ChangeRagdollState(c, Animated, now),
             load + [SetCulling(OriginalCulling), EnableRenderers(true, false)])
      else
        Step(c, load)
    case _ =>
      Step(c, [])
  }

  /**
    LateUpdate: inert without both references; otherwise the per-state work
    (fall easing, waiting for and doing the master teleport, the get-up blend)
    followed by UpdateLoop in whatever state that left.
   */
  function LateUpdate(s: Setup, c: Controller, now: real, deltaTime: real, frame: FrameInput): (r: Step)
    requires Valid(s, c)
    ensures Valid(s, r.next)
    ensures !Configured(s) ==> r == Step(c, [])
    ensures r.next.state == c.state || r.next.state == Succ(c.state)
    ensures r.next.physicsCallbacks == c.physicsCallbacks && r.next.boneDecays == c.boneDecays
    ensures r.next.lastTorques == c.lastTorques && r.next.fallSpeed == c.fallSpeed
    ensures c.state == Animated || c.state == Ragdolled ==> r == Step(c, [])
    ensures Configured(s) && c.state == Falling ==>
      && r.next.state == Falling && r.next.stateStartTime == c.stateStartTime
      && r.next.fallDecay
         == FD.HandleFallLerp(c.fallDecay, FD.FallLerpSpeed(c.fallSpeed, s.profile.value.fallDecaySpeed, deltaTime))
      && (r.effects == [TrackVelocities(deltaTime)] <==> r.next.fallDecay != 0.0)
      && (r.effects == [] <==> r.next.fallDecay == 0.0)
    ensures Configured(s) && c.state == CalculateAnimationVelocity ==>
      && r.next.state == Falling && r.next.fallDecay == 1.0 && r.next.stateStartTime == now
      && r.effects == StartFallState(c, now).effects
    ensures Configured(s) && c.state == TeleportMasterToRagdoll ==>
      && (r.next.state == BlendToAnimated <==> now - c.stateStartTime >= s.profile.value.orientateDelay)
      && (r.next.state == BlendToAnimated ==>
            r.next.stateStartTime == now && r.effects == [PlaceMaster(MasterPlacement(frame))])
      && (r.next.state != BlendToAnimated ==> r == Step(c, []))
    ensures Configured(s) && c.state == BlendToAnimated ==>
      var blend := BlendWeight(now - c.stateStartTime, s.profile.value.blendTime);
      && |r.effects| > 0 && r.effects[0] == LoadSnapshot(1.0 - blend)
      && (r.next.state == Animated <==> blend == 1.0)
      && (blend < 1.0 ==> r == Step(c, [LoadSnapshot(1.0 - blend)]))
      && (r.next.state == Animated ==>
            r.next.stateStartTime == now
            && r.effects[1..] == [SetCulling(OriginalCulling), EnableRenderers(true, false)])
  {
    if !Configured(s) then Step(c, [])
    else
      var pose := LateUpdateState(s, c, now, deltaTime, frame);
      var loop := UpdateLoop(pose.next, now, deltaTime);
      Step(loop.next, pose.effects + loop.effects)
  }

  // ---------------------------------------------------------------------------
  // FixedUpdate: the physics phase
  // ---------------------------------------------------------------------------

  /** OnRagdollPhysics: every stored callback runs once and the set is emptied. */
  function OnRagdollPhysics(c: Controller): (r: Step)
    ensures r.next == c.(physicsCallbacks := {})
    ensures c.physicsCallbacks != {} ==> r.effects == [RunPhysicsCallbacks(c.physicsCallbacks)]
    ensures c.physicsCallbacks == {} ==> r.effects == []
  {
    if |c.physicsCallbacks| > 0 then
      Step(c.(physicsCallbacks := {}), [RunPhysicsCallbacks(c.physicsCallbacks)])
    else
      Step(c, [])
  }

  /**
    StartGetUp: bone decays back to 0, the fall-speed override cleared,
    physics off, the pose saved, the get-up animation matching the side the
    ragdoll lies on triggered, and the state TeleportMasterToRagdoll.
   */
  function StartGetUp(s: Setup, c: Controller, now: real, input: PhysicsInput): (r: Step)
    requires Valid(s, c) && Configured(s) && c.state == Ragdolled
    ensures Valid(s, r.next)
    ensures r.next.state == TeleportMasterToRagdoll && r.next.stateStartTime == now
    ensures r.next.boneDecays.Keys == c.boneDecays.Keys
    ensures forall b :: b in r.next.boneDecays ==> r.next.boneDecays[b] == 0.0
    ensures r.next.fallSpeed == FD.UseProfileSpeed
    ensures r.next.fallDecay == c.fallDecay && r.next.physicsCallbacks == c.physicsCallbacks
    ensures r.next.lastTorques == c.lastTorques
    ensures r.effects == [SetKinematic(true), SaveSnapshot, GetUpTrigger(V.Dot(input.hipsForward, V.Down) < 0.0)]
  {
    var reset := c.(boneDecays := BD.ResetBoneDecays(c.boneDecays, s.rig.value),
                    fallSpeed := FD.UseProfileSpeed);
    var onBack := V.Dot(input.hipsForward, V.Down) < 0.0;
    Step(ChangeRagdollState(reset, TeleportMasterToRagdoll, now),
         [SetKinematic(true), SaveSnapshot, GetUpTrigger(onBack)])
  }

  /** CheckForGetUp's condition: ragdolled long enough and the root has settled. */
  function ReadyToGetUp(s: Setup, c: Controller, now: real, input: PhysicsInput): (r: bool)
    requires Configured(s) && |input.velocities| > 0
    ensures r ==> s.profile.value.ragdollMinTime < now - c.stateStartTime
    ensures s.profile.value.settledSpeed == 0.0 ==> !r
  {
    var p := s.profile.value;
    && now - c.stateStartTime > p.ragdollMinTime
    && V.SqrMag(input.velocities[0]) < p.settledSpeed * p.settledSpeed
  }

  /**
    The squared comparison in CheckForGetUp is the speed test it stands for:
    the root is settled exactly when its speed is below settledSpeed.
   */
  lemma ReadyToGetUpMeansSettled(s: Setup, c: Controller, now: real, input: PhysicsInput,
                                 sqrt: real -> real)
    requires Configured(s) && |input.velocities| > 0
    requires V.IsSquareRoot(sqrt) && 0.0 <= s.profile.value.settledSpeed
    ensures ReadyToGetUp(s, c, now, input) <==>
              && s.profile.value.ragdollMinTime < now - c.stateStartTime
              && sqrt(V.SqrMag(input.velocities[0])) < s.profile.value.settledSpeed
  {
    var speed := sqrt(V.SqrMag(input.velocities[0]));
    assert speed * speed == V.SqrMag(input.velocities[0]);
    V.SquaresOrdered(speed, s.profile.value.settledSpeed);
  }

  /** The velocity pass for physics bone `i`. */
  function FollowBoneAt(s: Setup, c: Controller, input: PhysicsInput, deltaTime: real, i: nat): VP.BoneFollow
    requires Valid(s, c) && Configured(s) && FitsRig(input, s.rig.value)
    requires i < |s.rig.value.bones|
  {
    var p := s.profile.value;
    var bone := s.rig.value.bones[i];
    assert bone.id in Ids(s.rig.value);
    VP.FollowBone(i, p.bones[i], bone, p.maxTorque, p.maxGravityAddVelocity, c.fallDecay,
                  c.boneDecays[bone.id], input.velocities[i], input.animationVelocities[i],
                  input.gravity.y, deltaTime, c.lastTorques[i])
  }

  /**
    SetPhysicsVelocities: the velocity pass over every physics bone, the
    joint-torque cache updated from it, and then CheckForFallEnd: the fall
    ends (Ragdolled) exactly when the fall decay is 0.
   */
  function SetPhysicsVelocities(s: Setup, c: Controller, now: real, deltaTime: real,
                                input: PhysicsInput): (r: PhysicsStep)
    requires Valid(s, c) && Configured(s) && c.state == Falling && FitsRig(input, s.rig.value)
    ensures Valid(s, r.next)
    ensures r.effects == []
    ensures |r.bones| == |s.rig.value.bones|
    ensures forall i :: 0 <= i < |r.bones| ==> r.bones[i] == FollowBoneAt(s, c, input, deltaTime, i)
    ensures |r.next.lastTorques| == |c.lastTorques|
    ensures forall i :: 0 <= i < |r.bones| ==> r.next.lastTorques[i] == r.bones[i].joint.lastTorque
    ensures r.next.state == Ragdolled <==> c.fallDecay == 0.0
    ensures r.next.state != Ragdolled ==> r.next.state == Falling
    ensures r.next.stateStartTime == (if c.fallDecay == 0.0 then now else c.stateStartTime)
    ensures r.next.fallDecay == c.fallDecay && r.next.boneDecays == c.boneDecays
    ensures r.next.physicsCallbacks == c.physicsCallbacks && r.next.fallSpeed == c.fallSpeed
  {
    var n := |s.rig.value.bones|;
    var follows := seq(n, i requires 0 <= i < n => FollowBoneAt(s, c, input, deltaTime, i));
    var torques := seq(n, i requires 0 <= i < n => follows[i].joint.lastTorque);
    var cached := c.(lastTorques := torques);
    var next := if c.fallDecay == 0.0 then ChangeRagdollState(cached, Ragdolled, now) else cached;
    PhysicsStep(next, [], follows)
  }

  /** The states in which deferred physics callbacks are flushed. */
  predicate Physical(state: State)
  {
    state == Falling || state == Ragdolled
  }

  /**
    FixedUpdate: inert without both references; otherwise the deferred
    callbacks are flushed when Falling or Ragdolled, then a Ragdolled
    controller checks for get-up (unless get-up is disabled), an Animated one
    keeps the hidden ragdoll glued to the animation, and a Falling one runs
    the velocity pass.
   */
  function FixedUpdate(s: Setup, c: Controller, now: real, deltaTime: real, input: PhysicsInput): (r: PhysicsStep)
    requires Valid(s, c)
    requires Configured(s) ==> FitsRig(input, s.rig.value)
    ensures Valid(s, r.next)
    ensures !Configured(s) ==> r == PhysicsStep(c, [], [])
    ensures r.next.state == c.state || r.next.state == Succ(c.state)
    ensures r.next.fallDecay == c.fallDecay
    ensures Configured(s) && Physical(c.state) ==>
      && r.next.physicsCallbacks == {}
      && (c.physicsCallbacks != {} <==> RunPhysicsCallbacks(c.physicsCallbacks) in r.effects)
    ensures !(Configured(s) && Physical(c.state)) ==>
      && r.next.physicsCallbacks == c.physicsCallbacks
      && forall e :: e in r.effects ==> !e.RunPhysicsCallbacks?
    ensures forall e :: e in r.effects && e.RunPhysicsCallbacks? ==>
      e == RunPhysicsCallbacks(c.physicsCallbacks) && c.physicsCallbacks != {}
    ensures c.state != Falling ==> r.bones == [] && r.next.lastTorques == c.lastTorques
    ensures Configured(s) && c.state == Falling ==>
      && (r.next.state == Ragdolled <==> c.fallDecay == 0.0)
      && r.next.stateStartTime == (if c.fallDecay == 0.0 then now else c.stateStartTime)
      && r.next.boneDecays == c.boneDecays && r.next.fallSpeed == c.fallSpeed
      && |r.bones| == |s.rig.value.bones|
      && (forall i :: 0 <= i < |r.bones| ==> r.bones[i] == FollowBoneAt(s, c, input, deltaTime, i))
      && |r.next.lastTorques| == |c.lastTorques|
      && (forall i :: 0 <= i < |r.bones| ==> r.next.lastTorques[i] == r.bones[i].joint.lastTorque)
    ensures Configured(s) && c.state == Ragdolled ==>
      && ((r.next.state == TeleportMasterToRagdoll)
            <==> (!s.disableGetUp && ReadyToGetUp(s, c, now, input)))
      && (r.next.state == Ragdolled ==>
            && r.next == c.(physicsCallbacks := {})
            && r.effects == OnRagdollPhysics(c).effects)
      && (r.next.state == TeleportMasterToRagdoll ==>
            && r.next.stateStartTime == now
            && r.next == StartGetUp(s, c.(physicsCallbacks := {}), now, input).next
            && r.effects == OnRagdollPhysics(c).effects
                            + StartGetUp(s, c.(physicsCallbacks := {}), now, input).effects
            && (forall b :: b in r.next.boneDecays ==> r.next.boneDecays[b] == 0.0)
            && r.next.fallSpeed == FD.UseProfileSpeed
            && SetKinematic(true) in r.effects && SaveSnapshot in r.effects)
    ensures Configured(s) && c.state == Animated ==>
      r == PhysicsStep(c, [TeleportRagdoll(PhysicsBonesAndParents)], [])
    ensures Configured(s) && !Physical(c.state) && c.state != Animated ==> r == PhysicsStep(c, [], [])
    ensures Configured(s) && c.state == Falling ==> r.effects == OnRagdollPhysics(c).effects
  {
    if !Configured(s) then PhysicsStep(c, [], [])
    else
      var flushed := if Physical(c.state) then OnRagdollPhysics(c) else Step(c, []);
      var c1 := flushed.next;
      match c1.state
      case Ragdolled =>
        if !s.disableGetUp && ReadyToGetUp(s, c1, now, input) then
          var up := StartGetUp(s, c1, now, input);
          PhysicsStep(up.next, flushed.effects + up.effects, [])
        else
          PhysicsStep(c1, flushed.effects, [])
      case Animated =>
        PhysicsStep(c1, [TeleportRagdoll(PhysicsBonesAndParents)], [])
      case Falling =>
        var pass := SetPhysicsVelocities(s, c1, now, deltaTime, input);
        PhysicsStep(pass.next, flushed.effects + pass.effects, pass.bones)
      case _ =>
        PhysicsStep(c1, flushed.effects, [])
  }
}

=== FILE: vectors.dfy ===
/**
  Three-component vectors (the engine's Vector3) over reals, with the
  operations the controller and the bone trackers use.
 */
module Vectors {
  import N = Numerics

  datatype Vec3 = Vec3(x: real, y: real, z: real)

  const Zero: Vec3 := Vec3(0.0, 0.0, 0.0)
  const Down: Vec3 := Vec3(0.0, -1.0, 0.0)

  function Add(a: Vec3, b: Vec3): Vec3 { Vec3(a.x + b.x, a.y + b.y, a.z + b.z) }

  function Sub(a: Vec3, b: Vec3): Vec3 { Vec3(a.x - b.x, a.y - b.y, a.z - b.z) }

  function Scale(k: real, v: Vec3): Vec3 { Vec3(k * v.x, k * v.y, k * v.z) }

  function Dot(a: Vec3, b: Vec3): real { a.x * b.x + a.y * b.y + a.z * b.z }

  /** Vector3.sqrMagnitude. */
  function SqrMag(v: Vec3): (r: real)
    ensures 0.0 <= r
  {
    SquareNonNegative(v.x);
    SquareNonNegative(v.y);
    SquareNonNegative(v.z);
    Dot(v, v)
  }

  lemma SquareNonNegative(a: real)
    ensures 0.0 <= a * a
  {
    if a < 0.0 {
      N.ProductNonNegative(-a, -a);
      assert a * a == (-a) * (-a);
    } else {
      N.ProductNonNegative(a, a);
    }
  }

  /** For non-negative reals, squaring preserves strict order both ways. */
  lemma SquaresOrdered(a: real, b: real)
    requires 0.0 <= a && 0.0 <= b
    ensures a * a < b * b <==> a < b
  {
    assert b * b - a * a == (b - a) * (b + a);
    if a < b {
      N.ProductPositive(b - a, b + a);
    } else {
      N.ProductNonNegative(a - b, a + b);
    }
  }

  /** Vector3.Lerp: component-wise Mathf.Lerp, with t clamped to [0,1]. */
  function Lerp(a: Vec3, b: Vec3, t: real): (r: Vec3)
    ensures t <= 0.0 ==> r == a
    ensures 1.0 <= t ==> r == b
    ensures N.Min(a.x, b.x) <= r.x <= N.Max(a.x, b.x)
    ensures N.Min(a.y, b.y) <= r.y <= N.Max(a.y, b.y)
    ensures N.Min(a.z, b.z) <= r.z <= N.Max(a.z, b.z)
    ensures 0.0 <= t <= 1.0 ==> r == Add(a, Scale(t, Sub(b, a)))
  {
    Vec3(N.Lerp(a.x, b.x, t), N.Lerp(a.y, b.y, t), N.Lerp(a.z, b.z, t))
  }

  /**
    The vector whose every component is the larger-magnitude one of the
    two arguments' components (the second argument on ties).
   */
  function MaxAbs(a: Vec3, b: Vec3): (r: Vec3)
    ensures r.x == a.x || r.x == b.x
    ensures r.y == a.y || r.y == b.y
    ensures r.z == a.z || r.z == b.z
    ensures N.Abs(r.x) == N.Max(N.Abs(a.x), N.Abs(b.x))
    ensures N.Abs(r.y) == N.Max(N.Abs(a.y), N.Abs(b.y))
    ensures N.Abs(r.z) == N.Max(N.Abs(a.z), N.Abs(b.z))
    ensures N.Abs(a.x) == N.Abs(b.x) ==> r.x == b.x
    ensures N.Abs(a.y) == N.Abs(b.y) ==> r.y == b.y
    ensures N.Abs(a.z) == N.Abs(b.z) ==> r.z == b.z
  {
    Vec3(N.MaxAbs(a.x, b.x), N.MaxAbs(a.y, b.y), N.MaxAbs(a.z, b.z))
  }

  /**
    The engine's square root is not modelled; operations that need it take
    a function that returns the non-negative root of every non-negative real.
   */
  ghost predicate IsSquareRoot(sqrt: real -> real)
  {
    forall x :: 0.0 <= x ==> 0.0 <= sqrt(x) && sqrt(x) * sqrt(x) == x
  }

  lemma SqrMagScale(k: real, v: Vec3)
    ensures SqrMag(Scale(k, v)) == k * k * SqrMag(v)
  {
  }

  /**
    Vector3.ClampMagnitude: the vector itself when its length is within
    `maxLength`, otherwise the vector rescaled to that length.
   */
  function ClampMagnitude(v: Vec3, maxLength: real, sqrt: real -> real): (r: Vec3)
    requires IsSquareRoot(sqrt)
    ensures SqrMag(r) <= maxLength * maxLength
    ensures SqrMag(v) <= maxLength * maxLength ==> r == v
    ensures SqrMag(v) > maxLength * maxLength ==> SqrMag(r) == maxLength * maxLength
    ensures 0.0 <= maxLength ==> exists k :: 0.0 <= k <= 1.0 && r == Scale(k, v)
  {
    var sq := SqrMag(v);
    if sq > maxLength * maxLength then
      ClampScale(v, maxLength, sqrt(sq));
      Scale(maxLength / sqrt(sq), v)
    else
      assert v == Scale(1.0, v);
      v
  }

  /** Rescaling by maxLength / |v| gives a vector of length |maxLength|. */
  lemma ClampScale(v: Vec3, maxLength: real, mag: real)
    requires SqrMag(v) > maxLength * maxLength
    requires 0.0 <= mag && mag * mag == SqrMag(v)
    ensures mag != 0.0
    ensures SqrMag(Scale(maxLength / mag, v)) == maxLength * maxLength
    ensures 0.0 <= maxLength ==> 0.0 <= maxLength / mag <= 1.0
  {
    ClampFactor(SqrMag(v), mag, maxLength);
    SqrMagScale(maxLength / mag, v);
  }

  /** The rescaling factor maxLength / |v| of ClampMagnitude. */
  lemma ClampFactor(sq: real, mag: real, maxLength: real)
    requires sq > maxLength * maxLength
    requires 0.0 <= mag && mag * mag == sq
    ensures mag != 0.0
    ensures (maxLength / mag) * (maxLength / mag) * sq == maxLength * maxLength
    ensures 0.0 <= maxLength ==> 0.0 <= maxLength / mag <= 1.0
  {
    SquareNonNegative(maxLength);
    SquareNonNegative(mag);
    var k := maxLength / mag;
    assert k * mag == maxLength;
    assert k * k * sq == (k * mag) * (k * mag);
    if 0.0 <= maxLength {
      SquaresOrdered(mag, maxLength);
      N.ProductNonNegative(maxLength, 1.0 / mag);
      assert k == maxLength * (1.0 / mag);
    }
  }
}

=== FILE: velocity_pass.dfy ===
/**
  One bone of the velocity pass that runs every physics step while the
  ragdoll is falling: how strongly the bone still chases the animation
  (force and torque decay), which velocity it chases, the velocity written
  to its rigid body, and the joint follow of non-root bones.
 */
module VelocityPass {
  import opened Wrappers
  import opened Numerics
  import V = Vectors
  import opened Profiles
  import JD = JointDrive

  /**
    The force decay (from the fall-force curve) or the torque decay (from the
    fall-torque curve): the curve value clamped to [0,1], minus the manual
    bone decay, clamped to [0,1] again.
   */
  function ChaseDecay(curveValue: real, boneDecay: real): (r: real)
    ensures 0.0 <= r <= 1.0
    ensures r == 0.0 <==> Clamp01(curveValue) <= boneDecay
    ensures 0.0 <= boneDecay ==> r <= Clamp01(curveValue)
    ensures boneDecay == 0.0 ==> r == Clamp01(curveValue)
    ensures Clamp01(curveValue) - 1.0 <= boneDecay <= Clamp01(curveValue) ==> r == Clamp01(curveValue) - boneDecay
  {
    Clamp01(Clamp01(curveValue) - boneDecay)
  }

  /**
    The animation velocity with one step of gravity as its vertical part when
    it is slower than `maxGravityAddVelocity` (compared as squares).
   */
  function WithGravity(animVelocity: V.Vec3, maxGravityAddVelocity: real, gravityY: real,
                       deltaTime: real): (r: V.Vec3)
    ensures r.x == animVelocity.x && r.z == animVelocity.z
    ensures maxGravityAddVelocity * maxGravityAddVelocity <= V.SqrMag(animVelocity) ==> r == animVelocity
    ensures V.SqrMag(animVelocity) < maxGravityAddVelocity * maxGravityAddVelocity ==>
              r.y == gravityY * deltaTime
    ensures maxGravityAddVelocity == 0.0 ==> r == animVelocity
  {
    if V.SqrMag(animVelocity) < maxGravityAddVelocity * maxGravityAddVelocity then
      animVelocity.(y := gravityY * deltaTime)
    else
      animVelocity
  }

  /**
    The velocity a bone chases: the gravity-adjusted animation velocity, or,
    when the bone has a manual decay, its component-wise larger-magnitude
    combination with the rigid body's own velocity (so an impact's velocity
    is not overwritten by a smaller animation velocity).
   */
  function TargetVelocity(ragdollVelocity: V.Vec3, animVelocity: V.Vec3, boneDecay: real,
                          maxGravityAddVelocity: real, gravityY: real, deltaTime: real): (r: V.Vec3)
    ensures var chased := WithGravity(animVelocity, maxGravityAddVelocity, gravityY, deltaTime);
            && (boneDecay == 0.0 ==> r == chased)
            && (boneDecay != 0.0 ==>
                  && Abs(r.x) == Max(Abs(ragdollVelocity.x), Abs(chased.x))
                  && Abs(r.y) == Max(Abs(ragdollVelocity.y), Abs(chased.y))
                  && Abs(r.z) == Max(Abs(ragdollVelocity.z), Abs(chased.z)))
  {
    var chased := WithGravity(animVelocity, maxGravityAddVelocity, gravityY, deltaTime);
    if boneDecay != 0.0 then V.MaxAbs(ragdollVelocity, chased) else chased
  }

  /** The target velocity's rules, as properties of its components. */
  lemma TargetVelocityRules(ragdollVelocity: V.Vec3, animVelocity: V.Vec3, boneDecay: real,
                            maxGravityAddVelocity: real, gravityY: real, deltaTime: real)
    ensures var slow := V.SqrMag(animVelocity) < maxGravityAddVelocity * maxGravityAddVelocity;
            var chased := WithGravity(animVelocity, maxGravityAddVelocity, gravityY, deltaTime);
            var r := TargetVelocity(ragdollVelocity, animVelocity, boneDecay, maxGravityAddVelocity,
                                    gravityY, deltaTime);
            && chased.x == animVelocity.x && chased.z == animVelocity.z
            && chased.y == (if slow then gravityY * deltaTime else animVelocity.y)
            && (boneDecay == 0.0 ==> r == chased)
            && (boneDecay != 0.0 ==>
                  && Abs(r.x) == Max(Abs(ragdollVelocity.x), Abs(chased.x))
                  && Abs(r.y) == Max(Abs(ragdollVelocity.y), Abs(chased.y))
                  && Abs(r.z) == Max(Abs(ragdollVelocity.z), Abs(chased.z))
                  && (r.x == ragdollVelocity.x || r.x == chased.x)
                  && (r.y == ragdollVelocity.y || r.y == chased.y)
                  && (r.z == ragdollVelocity.z || r.z == chased.z)
                  && (Abs(ragdollVelocity.x) == Abs(chased.x) ==> r.x == chased.x)
                  && (Abs(ragdollVelocity.y) == Abs(chased.y) ==> r.y == chased.y)
                  && (Abs(ragdollVelocity.z) == Abs(chased.z) ==> r.z == chased.z))
  {
  }

  /**
    What the pass does to one bone: the velocity written to its rigid body
    (None when the velocity is left untouched) and its joint-drive update.
   */
  datatype BoneFollow = BoneFollow(velocity: Option<V.Vec3>, joint: JD.DriveUpdate)

  /**
    The pass for physics bone `index`: `fallDecay` is the controller's global
    decay, `boneDecay` the bone's manual decay, `velocity` its rigid body's
    velocity, `animVelocity` its tracked animation velocity and `lastTorque`
    the cached joint torque. Curves are sampled at 1 - fallDecay.
   */
  function FollowBone(index: nat, bp: BoneProfile, bone: RigBone, maxTorque: real,
                      maxGravityAddVelocity: real, fallDecay: real, boneDecay: real,
                      velocity: V.Vec3, animVelocity: V.Vec3, gravityY: real, deltaTime: real,
                      lastTorque: real): (r: BoneFollow)
    ensures var forceDecay := ChaseDecay(bp.fallForceDecay(1.0 - fallDecay), boneDecay);
            && (r.velocity.None? <==> forceDecay == 0.0)
            && (r.velocity.Some? ==>
                  r.velocity.value == V.Lerp(velocity,
                                             TargetVelocity(velocity, animVelocity, boneDecay,
                                                            maxGravityAddVelocity, gravityY, deltaTime),
                                             forceDecay))
    ensures index == 0 ==> r.joint == JD.DriveUpdate(None, false, lastTorque)
    ensures index != 0 ==>
      r.joint == JD.FollowJoint(bone.hasJoint,
                                maxTorque * ChaseDecay(bp.fallTorqueDecay(1.0 - fallDecay), boneDecay),
                                lastTorque)
  {
    var sample := 1.0 - fallDecay;
    var forceDecay := ChaseDecay(bp.fallForceDecay(sample), boneDecay);
    var written :=
      if forceDecay != 0.0 then
        Some(V.Lerp(velocity, TargetVelocity(velocity, animVelocity, boneDecay, maxGravityAddVelocity,
                                             gravityY, deltaTime), forceDecay))
      else None;
    var joint :=
      if index != 0 then
        JD.FollowJoint(bone.hasJoint, maxTorque * ChaseDecay(bp.fallTorqueDecay(sample), boneDecay),
                       lastTorque)
      else JD.DriveUpdate(None, false, lastTorque);
    BoneFollow(written, joint)
  }

  /**
    A manual bone decay of 1 or more makes the bone ignore the animation
    entirely: its velocity is left alone and its joint gets no target.
   */
  lemma FullBoneDecayIgnoresAnimation(index: nat, bp: BoneProfile, bone: RigBone, maxTorque: real,
                                      maxGravityAddVelocity: real, fallDecay: real, boneDecay: real,
                                      velocity: V.Vec3, animVelocity: V.Vec3, gravityY: real,
                                      deltaTime: real, lastTorque: real)
    requires 1.0 <= boneDecay
    ensures var r := FollowBone(index, bp, bone, maxTorque, maxGravityAddVelocity, fallDecay, boneDecay,
                                velocity, animVelocity, gravityY, deltaTime, lastTorque);
            r.velocity.None? && !r.joint.setsTarget
  {
    var sample := 1.0 - fallDecay;
    assert ChaseDecay(bp.fallTorqueDecay(sample), boneDecay) == 0.0;
    assert maxTorque * 0.0 == 0.0;
  }

  /**
    Without a manual decay the bone chases the gravity-adjusted animation
    velocity with the full curve strength; at full strength its velocity
    becomes exactly that velocity.
   */
  lemma NoBoneDecayFollowsCurve(index: nat, bp: BoneProfile, bone: RigBone, maxTorque: real,
                                maxGravityAddVelocity: real, fallDecay: real,
                                velocity: V.Vec3, animVelocity: V.Vec3, gravityY: real,
                                deltaTime: real, lastTorque: real)
    requires 1.0 <= bp.fallForceDecay(1.0 - fallDecay)
    ensures FollowBone(index, bp, bone, maxTorque, maxGravityAddVelocity, fallDecay, 0.0, velocity,
                       animVelocity, gravityY, deltaTime, lastTorque).velocity
            == Some(WithGravity(animVelocity, maxGravityAddVelocity, gravityY, deltaTime))
  {
  }
}

=== FILE: wrappers.dfy ===
/** An optional value: a missing reference, a ray that hit nothing, a write not made. */
module Wrappers {

  datatype Option<T> = None | Some(value: T)
}
